=== FILE: README.md ===
# Typevote vote-counting core in Dafny

Typevote runs an anonymous vote through a Typeform questionnaire in two steps.

1. **Registration.** The organiser feeds it email files. Every line holding an `@` is stripped of surrounding whitespace and becomes a voter address. Each new address gets a *voter code*: the first 12 hex characters of the MD5 digest of a per-vote salt followed by the address. The codes are written to a codefile as `email,code` lines, and the codes are mailed out.
2. **Counting.** The questionnaire's CSV export (the *votefile*) is read back. Each row is filed under its `voterid` cell, and a later row with the same code replaces the earlier one. Rows whose code was never issued are set aside as *rogue*. For every column of the file, a histogram of answers is built from the registered rows. The result file lists, per question with at least one vote, each answer's count and share of the total.

The project models both steps as pure functions over immutable data. It proves the following:

- what each step computes, stated without loops;
- the error exits: status 2 for a hash collision, 3 for a null code in the code table, 4 for a votefile without a `voterid` column;
- the codefile round trip;
- last-write-wins for repeated codes;
- that rogue rows count for nothing;
- that the exact shares (count divided by total) add up to 1.

Modules, one file each:

- `Common`: `Option`, the fatal `Fault`s, `Result`, and exit statuses.
- `Seqs`: distinctness, counting and order-preserving de-duplication. Python dicts are iterated in insertion order, so the dicts whose order shows in the output are modelled as sequences. Python sets have no such order; `voters` and the rogue set are Dafny sets.
- `Text`: Python's `str.strip()`.
- `Voters`: `salted_hash`, `add_emails` and `gen_codefile`.
- `Ballots`: the row-storing loop of `get_votes`.
- `Tally`: the rest of `get_votes`.
- `Report`: the arithmetic of `gen_result`.

Modelling choices:

- **Voter codes table.** The `voterids` dict is kept as the sequence of its `(code, email)` rows in insertion order. `VoterIds` rebuilds the dict itself, keyed by `Option<string>`, so the source's `None in voterids` test is a real test.
- **Votefile rows.** A row is a map from header field to cell. A field the row is too short to fill is absent and reads as `None`, as `row.get(q)` returns.
- **Histogram keys.** Histograms are keyed by `Option<string>` for the same reason: a missing cell is counted under `None`.
- **Repeated header fields.** The counting loop visits every header field, so a field that appears twice in the header is counted twice per ballot, and the histograms reflect that.
- **Shares.** Shares are exact rationals (`real`) equal to count / total.

The code only strips addresses; it never lower-cases them. It has no notion of organisations, ranked-choice questions or quiz scoring. The model follows the code in all of this.

## Model

| member | source | states |
|---|---|---|
| Common.ExitStatus | typevote.py:36-70 | Every fatal condition of the core ends the run with a status from 2 to 4, never with 0, the status of a normal run: 2 exactly for a hash collision, 3 exactly for a null code, 4 exactly for a missing `voterid` column |
| Common.ExitStatusDistinguishesCauses | typevote.py:36-70 | Two fatal conditions of the core share an exit status exactly when they have the same cause |
| Voters.SaltedHash | typevote.py:21-23 | The code is a prefix of the digest of salt followed by address, of length `codelen` or the whole digest when it is shorter |
| Voters.DefaultCodesHaveTwelveChars | typevote.py:21-23 | With the default code length of 12 (typevote.py line 14) and a 32-character hex digest every voter code has 12 characters |
| Voters.EmptyRegistryIsValid | typevote.py:15-16 | A fresh instance, with no voters and an empty `voterids`, is a consistent registry |
| Voters.Enter | typevote.py:34-39 | Registering an address adds it to `voters`, maps its code to it in `voterids` and appends the code last, in insertion order |
| Voters.VoterIds | typevote.py:39 | The `voterids` dict built from the registered rows never has a `None` key, and its keys are exactly the registered codes |
| Voters.VoterIdsOfUniqueCodes | typevote.py:36-39 | With unique codes no entry of `voterids` is overwritten: each row is found under its code and the dict has one key per row |
| Voters.Classify | typevote.py:30-43 | A line is skipped exactly when it has no `@`, and is a duplicate exactly when its stripped text is already a voter |
| Voters.AddLine | typevote.py:30-43 | One line fails exactly when it is a new address whose code is already a key of `voterids`, and then only with a hash collision; otherwise the three counters together go up by one, and registry consistency is kept |
| Voters.CollisionNamesTwoVoters | typevote.py:32-39 | In a consistent registry whose codes are the salted hashes of their emails, a failing line is a hash collision: its stripped text is a new address, the other address is an already registered, different voter, and both hash to the reported code |
| Voters.CollisionInFile | typevote.py:25-44 | When `add_emails` fails on a consistent, hash-coded registry, the fault is a collision found at some `@` line of the file: its stripped address is new, being neither a voter before the file nor on an earlier line, while the other address, different and with the same salted hash, was registered before the file or came on an earlier line |
| Voters.LastLineCollides | typevote.py:29-39 | When all lines but the last register without trouble and the file fails, the collision is reported for the last line's address against an address that was already there |
| Voters.IgnoredLineChangesOnlyItsCounter | typevote.py:40-43 | A duplicate line or a line without `@` leaves the registry unchanged and raises only its own counter |
| Voters.AddEmails | typevote.py:25-44 | The only fault is a hash collision; the three counters add up to the number of lines; a consistent registry (unique codes, unique emails, `voters` equal to the registered emails) stays consistent |
| Voters.AddEmailsOutcome | typevote.py:25-44 | `add_emails` succeeds exactly when the old codes and the codes of the new addresses are all distinct. It then appends one row per new address, in order of first appearance; adds every `@` address to `voters`; counts each new address once as valid; and counts each line without `@` as skipped |
| Voters.ValidCountIsNewAddresses | typevote.py:32-34 | The valid counter equals the number of distinct addresses in the file that were not registered before |
| Voters.VoterIdsInjective | typevote.py:32-39 | In a consistent registry two different codes never map to the same email |
| Voters.RegisteredEmailsAreFound | typevote.py:34-39 | After registration, looking up any voter's salted hash in `voterids` gives back that voter's email |
| Voters.ParseCodeLine | typevote.py:55 | Whatever it reads from a codefile line is an email and a comma-free code that write back to exactly that line |
| Voters.CodeLineRoundTrip | typevote.py:55 | A codefile line reads back as the email and code it was written from, given a comma-free code |
| Voters.Codefile | typevote.py:46-56 | The codefile has exactly one line per key of `voterids` |
| Voters.KeyCount | typevote.py:39 | The `voterids` dict has as many keys as there are distinct codes in its insertion history |
| Voters.CodefileListsVoterIds | typevote.py:52-55 | The codefile has one line per `voterids` entry, in registration order, each reading back as that entry |
| Text.Strip | typevote.py:31 | Never longer than the line; characterised by `Text.StripIsStripOf` and `Text.StripOfUnique` |
| Text.StripIsStripOf | typevote.py:31 | The stripped address is a slice of the line with only whitespace cut from either end and none left at the ends |
| Text.StripOfUnique | typevote.py:31 | That characterisation has only one solution, so `Strip` is exactly `str.strip()` |
| Text.StripIdempotent | typevote.py:31 | Stripping a stripped address changes nothing |
| Text.AtSurvivesStrip | typevote.py:30-31 | The raw line has an `@` exactly when the stripped address has one |
| Seqs.DedupeSnoc | typevote.py:88-91 | Filling a dict from one more element keeps the earlier key order and appends the element's key only if it is new |
| Seqs.Dedupe | typevote.py:77 | Building a dict from a key list keeps each key once, in order of first occurrence, and loses none |
| Ballots.Final | typevote.py:71-76 | The stored votes have a key for exactly the codes that occur in the votefile |
| Ballots.FinalKeepsLastRow | typevote.py:73-76 | The row stored for a code is the last row of the votefile that carries that code |
| Ballots.FinalIgnoresOtherCodes | typevote.py:76 | Rows with other codes appended to the votefile do not change a code's stored row |
| Ballots.Store | typevote.py:76 | Assigning into the ordered dict replaces an existing key's row in place, appends a new key last, and changes nothing else |
| Ballots.Retain | typevote.py:71-76 | The `votes` dict holds each code of the votefile once, in order of first appearance, with its last row |
| Tally.Total | typevote.py:103 | The total of a histogram is at least every single answer's count |
| Tally.ListedIffCounted | typevote.py:88-91 | In a histogram whose every count is positive, an answer is listed exactly when its count is positive |
| Tally.TotalZeroIffEmpty | typevote.py:103-104 | A histogram with positive counts totals 0 exactly when it has no items |
| Tally.Bump | typevote.py:88-91 | Counting an answer raises exactly that answer's count by one, keeps the answers unique, keeps every count positive, and raises the total by one |
| Tally.BumpOrder | typevote.py:88-91 | Counting an answer keeps the histogram's order as the dict does: an answer already listed keeps its place, a new answer goes last |
| Tally.RecordOrder | typevote.py:86-91 | After one ballot, each question of the header has its ballot's answer noted in that dict order, and every other histogram keeps its order |
| Tally.Record | typevote.py:86-91 | One ballot raises each question's count for the ballot's answer by the number of times the question appears in the header, keeps every count positive, and leaves all else alone |
| Tally.Blank | typevote.py:77 | Counting starts with one histogram per distinct header field, in header order, each with no items, so every total and count is 0 |
| Tally.TallyVotes | typevote.py:78-91 | Every count equals the header multiplicity times the number of registered ballots with that answer; unregistered ballots only add their codes to the rogue set; counts that start positive stay positive |
| Tally.GetVotes | typevote.py:58-92 | `get_votes` fails exactly when `voterids` has a `None` key (exit 3, checked first) or the header lacks `voterid` (exit 4). Otherwise it records every row, keeps one ballot per code in first-appearance order, stores for each of those codes the last row that carries it, and keeps one histogram per distinct header field, in header order, whose every count is positive |
| Tally.GetVotesCountsLastBallots | typevote.py:71-91 | Each count is the header multiplicity times the number of distinct registered codes whose last row gives that answer; each total is that multiplicity times the number of distinct registered codes; the rogue set grows by exactly the unregistered codes |
| Tally.ListedAnswersWereGiven | typevote.py:71-91 | A question's histogram lists an answer exactly when some registered code's last row gives that answer |
| Tally.TallyOrder | typevote.py:78-91 | Counting from empty histograms lists each question's answers in the order the registered ballots first give them |
| Tally.HistogramOrder | typevote.py:71-91 | Each histogram of `get_votes` lists its answers once each, in the order in which the stored ballots of registered codes, taken in `votes` order, first give them |
| Tally.TotalsOfDistinctHeader | typevote.py:77-91 | With a header naming each field once, the questions are the header and every total is the number of distinct registered codes |
| Tally.RogueRowsCountForNothing | typevote.py:81-85 | Appending rows with unregistered codes changes no count and no total |
| Tally.SkippedExactlyWithoutRegisteredVotes | typevote.py:103-105 | A question is skipped in the result exactly when the votefile has no registered code |
| Report.Shares | typevote.py:107-110 | One answer line per histogram item, in histogram order, with that item's answer, its count, and its share: the count divided by the total |
| Report.SharesSum | typevote.py:107-110 | The shares of a histogram add up to its total divided by the divisor |
| Report.SharesSumToOne | typevote.py:103-110 | The exact shares of a question with a nonzero total, each count divided by the total, add up to 1 (the printed percentages are rounded) |
| Report.Sections | typevote.py:102-111 | Sections come in question order. A question gets a section exactly when its total is nonzero. Each section carries the question's index among all questions, counting the skipped ones; its name; its total; and its answer lines |
| Report.GenResult | typevote.py:102-112 | The result file has, in question order, a section for exactly the questions with a nonzero total, each with its index, name, total and answer lines, followed by the rogue codes of the count |
| Report.SectionsOfEqualTotals | typevote.py:102-111 | If all totals equal `v`, no section is written when `v` is 0; otherwise every question gets a section numbered by its position, with total `v` and shares summing to 1 |
| Report.ResultOfVotefile | typevote.py:58-111 | With a header naming each field once: no section when no registered code voted; otherwise one section per field, in order, each with the number of distinct registered voters as its total and shares summing to 1 |
| Report.RegistryVotesFailOnlyWithoutColumn | typevote.py:58-70 | A `voterids` table built by `add_emails` never has a `None` key, so counting against it fails only for a missing `voterid` column (exit 4) |
| Report.AscendingCover | typevote.py:102 | Sections in ascending order that cover every index below n are numbered exactly 0 to n-1 |

## Left out

- Command-line parsing, usage text, the debug switch and all `print`/`logging` output: these have no effect on the computed data. A malformed command line also exits with status 2 (typevote.py:143-145), the same status as a hash collision; only the three faults of the core are modelled.
- File reading and writing: email files arrive as lists of lines, and votefiles as a header plus rows. The codefile is produced as a list of lines and the result as a list of sections.
- The CSV dialect: quoting, embedded newlines and the extra-cell key `None` that `csv.DictReader` uses are parsing details. So is the case of an empty votefile, whose header is `None`: the test on typevote.py:68 then raises a `TypeError`.
- MD5 and hex encoding: the digest is an uninterpreted function of the salted string.
- The salt: by default it is the time of the run (`datetime.now()`, a clock), or the vote name given with `--name` (typevote.py:13, 154-155). Either way it is a parameter of the hasher.
- The percentage text: shares are kept as exact rationals. The `6.2f` rounding, the `<BLANK>` label for an empty answer and the header and footer lines of the result file are not modelled.
- The comma-separated rogue list in the result file's footer is not modelled. The model keeps the rogue set, and that set can hold `None` for a row without a `voterid` cell, which `", ".join` would refuse.
- The closing summary `print` of `gen_result` (typevote.py:113) is not modelled. It reads `total_votes` of the last question only, and that name is unbound when there is no question at all.
- Voters.CodeLineRoundTrip: requires the code to be comma-free. A hex digest always is, but the model leaves the digest uninterpreted and so cannot derive it.
- Voters.CodefileListsVoterIds: stated for a consistent registry. With repeated codes `add_emails` would already have stopped with exit 2.
- Report.ResultOfVotefile: stated for a header that names each field once. With a repeated field every count is multiplied by its multiplicity, which `Tally.GetVotesCountsLastBallots` states in general.

=== FILE: ballots.dfy ===
/** The first loop of `get_votes` (typevote.py:71-76): every csv row is
    stored under its `voterid` cell, so a later row with the same code
    replaces an earlier one while the code keeps its first position. */
module Ballots {
  import opened Common
  import opened Seqs

  /** A csv record as `csv.DictReader` gives it: header field to cell text.
      A field the row is too short to fill is absent and reads as `None`. */
  type Row = map<string, string>

  /** A dict key as the source sees it: a code, or `None` for a missing cell. */
  type Key = Option<string>

  /** The column that carries the voter code (typevote.py:68, 73). */
  const VoterIdColumn: string := "voterid"

  /** `row.get(q)`: the cell of column `q`, `None` when it is missing. */
  function Cell(row: Row, q: string): Option<string> {
    if q in row then Some(row[q]) else None
  }

  /** The code a row votes under: `vote['voterid']`. */
  function KeyOf(row: Row): Key {
    Cell(row, VoterIdColumn)
  }

  function RowKeys(rows: seq<Row>): seq<Key> {
    seq(|rows|, i requires 0 <= i < |rows| => KeyOf(rows[i]))
  }

  /** Row `j` is the last one in `rows` that carries its code. */
  predicate IsLastOfItsCode(rows: seq<Row>, j: nat)
    requires j < |rows|
  {
    forall j' :: j < j' < |rows| ==> KeyOf(rows[j']) != KeyOf(rows[j])
  }

  /** The content of the `votes` dict, order aside: each code read mapped to
      the row stored under it last. */
  function Final(rows: seq<Row>): (votes: map<Key, Row>)
    ensures forall k :: k in votes <==> k in RowKeys(rows)
  {
    if |rows| == 0 then map[]
    else
      var p := rows[..|rows| - 1];
      assert RowKeys(rows) == RowKeys(p) + [KeyOf(rows[|rows| - 1])];
      Final(p)[KeyOf(rows[|rows| - 1]) := rows[|rows| - 1]]
  }

  /** The row kept for a code is the last row of the file that carries it. */
  lemma {:induction false} FinalKeepsLastRow(rows: seq<Row>, k: Key)
    requires k in Final(rows)
    ensures exists j :: 0 <= j < |rows| && rows[j] == Final(rows)[k] && KeyOf(rows[j]) == k && IsLastOfItsCode(rows, j)
  {
    var p := rows[..|rows| - 1];
    var x := rows[|rows| - 1];
    assert Final(rows) == Final(p)[KeyOf(x) := x];
    if KeyOf(x) == k {
      assert IsLastOfItsCode(rows, |rows| - 1);
    } else {
      FinalKeepsLastRow(p, k);
      var j :| 0 <= j < |p| && p[j] == Final(p)[k] && KeyOf(p[j]) == k && IsLastOfItsCode(p, j);
      assert rows[j] == p[j];
      forall j' | j < j' < |rows| ensures KeyOf(rows[j']) != k {
        if j' < |p| {
          assert rows[j'] == p[j'];
        }
      }
    }
  }

  /** Rows of other codes appended to the file leave a code's stored row
      alone. */
  lemma {:induction false} FinalIgnoresOtherCodes(rows: seq<Row>, extra: seq<Row>, k: Key)
    requires k !in RowKeys(extra)
    ensures k in Final(rows + extra) <==> k in Final(rows)
    ensures k in Final(rows) ==> Final(rows + extra)[k] == Final(rows)[k]
  {
    if |extra| == 0 {
      assert rows + extra == rows;
    } else {
      var e := extra[..|extra| - 1];
      assert (rows + extra)[..|rows + extra| - 1] == rows + e;
      assert RowKeys(extra) == RowKeys(e) + [KeyOf(extra[|extra| - 1])];
      FinalIgnoresOtherCodes(rows, e, k);
    }
  }

  /** One stored vote: a code and the row currently stored under it. */
  datatype Ballot = Ballot(key: Key, row: Row)

  function Keys(votes: seq<Ballot>): seq<Key> {
    seq(|votes|, i requires 0 <= i < |votes| => votes[i].key)
  }

  /** `votes[b.key] = b.row` on a dict kept as its insertion-ordered items:
      an existing key keeps its place and takes the new row, a new key goes
      last. */
  function Store(votes: seq<Ballot>, b: Ballot): (r: seq<Ballot>)
    requires Distinct(Keys(votes))
    ensures Keys(r) == if b.key in Keys(votes) then Keys(votes) else Keys(votes) + [b.key]
    ensures forall i :: 0 <= i < |r| ==>
      if r[i].key == b.key then r[i] == b else i < |votes| && r[i] == votes[i]
  {
    var ks := Keys(votes);
    if |votes| == 0 then [b]
    else if votes[0].key == b.key then
      var r := [b] + votes[1..];
      assert Keys(r) == ks;
      assert forall i :: 0 < i < |r| ==> r[i] == votes[i] && ks[0] != ks[i];
      r
    else
      assert Keys(votes[1..]) == ks[1..];
      assert ks == [votes[0].key] + Keys(votes[1..]);
      var rest := Store(votes[1..], b);
      assert Keys([votes[0]] + rest) == [votes[0].key] + Keys(rest);
      [votes[0]] + rest
  }

  /** The `votes` dict after the whole votefile has been read. */
  function Retain(rows: seq<Row>): (votes: seq<Ballot>)
    ensures Keys(votes) == Dedupe(RowKeys(rows))
    ensures forall i :: 0 <= i < |votes| ==> votes[i].key in Final(rows) && Final(rows)[votes[i].key] == votes[i].row
  {
    if |rows| == 0 then []
    else
      var p := rows[..|rows| - 1];
      var x := rows[|rows| - 1];
      var prior := Retain(p);
      assert RowKeys(rows)[..|rows| - 1] == RowKeys(p);
      var r := Store(prior, Ballot(KeyOf(x), x));
      assert forall i :: 0 <= i < |r| ==> r[i].key in Final(rows) && Final(rows)[r[i].key] == r[i].row by {
        forall i | 0 <= i < |r|
          ensures r[i].key in Final(rows) && Final(rows)[r[i].key] == r[i].row
        {
          if r[i].key != KeyOf(x) {
            assert r[i] == prior[i];
          }
        }
      }
      r
  }
}

=== FILE: common.dfy ===
/** Values shared by every stage of a Typevote run: optional values, the
    fatal conditions that end a run, and results that carry either. */
module Common {

  /** A value or nothing; `None` also stands for Python's `None`. */
  datatype Option<+T> = None | Some(value: T)

  /** The fatal conditions of a run. Each one ends the run at once with an
      exit status of its own (see `ExitStatus`). */
  datatype Fault =
    | HashCollision(email: string, other: string, code: string)
    | NullVoterId
    | NoVoterIdColumn

  /** Either the value an operation computed or the fault that stopped it. */
  datatype Result<+T> = Ok(value: T) | Err(fault: Fault)

  /** The process exit status for a fault: 2 for a hash collision while
      registering voters, 3 for a null code in the code table, 4 for a
      votefile without a `voterid` column. None of them is 0, the status of
      a run that ends normally. */
  function ExitStatus(f: Fault): (status: nat)
    ensures 2 <= status <= 4
    ensures status == 2 <==> f.HashCollision?
    ensures status == 3 <==> f.NullVoterId?
    ensures status == 4 <==> f.NoVoterIdColumn?
  {
    match f
    case HashCollision(_, _, _) => 2
    case NullVoterId => 3
    case NoVoterIdColumn => 4
  }

  /** Two faults share an exit status exactly when they have the same cause. */
  lemma ExitStatusDistinguishesCauses(f: Fault, g: Fault)
    ensures ExitStatus(f) == ExitStatus(g) <==>
      (f.HashCollision? && g.HashCollision?) || (f.NullVoterId? && g.NullVoterId?) ||
      (f.NoVoterIdColumn? && g.NoVoterIdColumn?)
  {
  }
}

=== FILE: report.dfy ===
/** The arithmetic of `gen_result` (typevote.py:102-112): per question the
    total of its histogram, the question skipped when that total is 0, and
    each answer's share of the total. Text layout is not modelled. */
module Report {
  import opened Common
  import opened Seqs
  import opened Ballots
  import opened Tally
  import Voters

  /** One answer line: the answer, its count and its share of the total,
      kept as the exact rational count/total. */
  datatype ShareLine = ShareLine(answer: Option<string>, count: nat, share: real)

  /** One question section: its position among all questions (skipped ones
      included, as `enumerate` numbers them), its label, its total and its
      answer lines in histogram order. */
  datatype Section = Section(index: nat, question: string, total: nat, lines: seq<ShareLine>)

  /** The content of the result file: the sections and the rogue codes. */
  datatype Summary = Summary(sections: seq<Section>, rogue: set<Key>)

  /** The answer lines of a histogram with the given total (typevote.py:107-110). */
  function Shares(h: Histogram, total: nat): (r: seq<ShareLine>)
    requires total > 0
    ensures |r| == |h|
    ensures forall i :: 0 <= i < |r| ==> r[i].answer == h[i].answer && r[i].count == h[i].count
    ensures forall i :: 0 <= i < |r| ==> r[i].share == r[i].count as real / total as real
  {
    seq(|h|, i requires 0 <= i < |h| => ShareLine(h[i].answer, h[i].count, h[i].count as real / total as real))
  }

  function SumShares(lines: seq<ShareLine>): real {
    if |lines| == 0 then 0.0 else lines[0].share + SumShares(lines[1..])
  }

  /** The shares add up to the counted part of the total. */
  lemma {:induction false} SharesSum(h: Histogram, total: nat)
    requires total > 0
    ensures SumShares(Shares(h, total)) == Total(h) as real / total as real
  {
    if |h| > 0 {
      assert Shares(h, total)[1..] == Shares(h[1..], total);
      SharesSum(h[1..], total);
      AddFractions(h[0].count as real, Total(h[1..]) as real, total as real);
    }
  }

  lemma AddFractions(x: real, y: real, t: real)
    requires t > 0.0
    ensures x / t + y / t == (x + y) / t
  {
  }

  /** The shares of a reported question add up to exactly 1. */
  lemma SharesSumToOne(h: Histogram)
    requires Total(h) > 0
    ensures SumShares(Shares(h, Total(h))) == 1.0
  {
    SharesSum(h, Total(h));
    DivideBySelf(Total(h) as real);
  }

  lemma DivideBySelf(t: real)
    requires t > 0.0
    ensures t / t == 1.0
  {
  }

  /** Each section reports a question with a nonzero total: its index,
      label, total and answer lines. */
  ghost predicate Describes(questions: seq<string>, responses: map<string, Histogram>, r: seq<Section>)
    requires forall q :: q in questions ==> q in responses
  {
    forall k :: 0 <= k < |r| ==>
      && r[k].index < |questions|
      && r[k].question == questions[r[k].index]
      && r[k].total == Total(responses[r[k].question]) > 0
      && r[k].lines == Shares(responses[r[k].question], r[k].total)
  }

  /** Sections come in question order. */
  ghost predicate Ascending(r: seq<Section>) {
    forall k, l :: 0 <= k < l < |r| ==> r[k].index < r[l].index
  }

  /** Some section reports the question at index `i`. */
  ghost predicate HasIndex(r: seq<Section>, i: nat) {
    exists k :: 0 <= k < |r| && r[k].index == i
  }

  /** A question has a section exactly when its total is nonzero. */
  ghost predicate Complete(questions: seq<string>, responses: map<string, Histogram>, r: seq<Section>)
    requires forall q :: q in questions ==> q in responses
  {
    forall i :: 0 <= i < |questions| ==> (Total(responses[questions[i]]) > 0 <==> HasIndex(r, i))
  }

  /** The question loop of `gen_result` (typevote.py:102-111): one section
      per question with a nonzero total, in question order. */
  function Sections(questions: seq<string>, responses: map<string, Histogram>): (r: seq<Section>)
    requires forall q :: q in questions ==> q in responses
    ensures Describes(questions, responses, r)
    ensures Ascending(r)
    ensures Complete(questions, responses, r)
  {
    if |questions| == 0 then []
    else
      var n := |questions| - 1;
      var q := questions[n];
      var prior := Sections(questions[..n], responses);
      var total := Total(responses[q]);
      if total == 0 then
        SectionsSkip(questions, responses, prior);
        prior
      else
        var r := prior + [Section(n, q, total, Shares(responses[q], total))];
        SectionsAdd(questions, responses, prior, r);
        r
  }

  lemma SectionsSkip(questions: seq<string>, responses: map<string, Histogram>, prior: seq<Section>)
    requires |questions| > 0
    requires forall q :: q in questions ==> q in responses
    requires Total(responses[questions[|questions| - 1]]) == 0
    requires Describes(questions[..|questions| - 1], responses, prior)
    requires Complete(questions[..|questions| - 1], responses, prior)
    ensures Describes(questions, responses, prior)
    ensures Complete(questions, responses, prior)
  {
    var n := |questions| - 1;
    assert forall i :: 0 <= i < n ==> questions[..n][i] == questions[i];
  }

  lemma SectionsAdd(questions: seq<string>, responses: map<string, Histogram>, prior: seq<Section>, r: seq<Section>)
    requires |questions| > 0
    requires forall q :: q in questions ==> q in responses
    requires var n := |questions| - 1;
      var total := Total(responses[questions[n]]);
      total > 0 && r == prior + [Section(n, questions[n], total, Shares(responses[questions[n]], total))]
    requires Describes(questions[..|questions| - 1], responses, prior)
    requires Ascending(prior)
    requires Complete(questions[..|questions| - 1], responses, prior)
    ensures Describes(questions, responses, r)
    ensures Ascending(r)
    ensures Complete(questions, responses, r)
  {
    var n := |questions| - 1;
    DescribesSnoc(questions, responses, prior, r);
    assert forall k :: 0 <= k < |prior| ==> r[k] == prior[k];
    SectionsAddComplete(questions, responses, prior, r);
  }

  /** Sections of the earlier questions still describe their questions once
      the last question joins, and so does a section added for it. */
  lemma DescribesSnoc(questions: seq<string>, responses: map<string, Histogram>, prior: seq<Section>, r: seq<Section>)
    requires |questions| > 0
    requires forall q :: q in questions ==> q in responses
    requires var n := |questions| - 1;
      var total := Total(responses[questions[n]]);
      total > 0 && r == prior + [Section(n, questions[n], total, Shares(responses[questions[n]], total))]
    requires Describes(questions[..|questions| - 1], responses, prior)
    ensures Describes(questions, responses, r)
  {
    var n := |questions| - 1;
    forall k | 0 <= k < |prior| ensures r[k] == prior[k] && questions[prior[k].index] == questions[..n][prior[k].index] {
    }
  }

  /** Appending the last question's section keeps `Complete`. */
  lemma SectionsAddComplete(questions: seq<string>, responses: map<string, Histogram>, prior: seq<Section>, r: seq<Section>)
    requires |questions| > 0
    requires forall q :: q in questions ==> q in responses
    requires Total(responses[questions[|questions| - 1]]) > 0
    requires |r| == |prior| + 1 && r[..|prior|] == prior && r[|prior|].index == |questions| - 1
    requires forall k :: 0 <= k < |prior| ==> prior[k].index < |questions| - 1
    requires Complete(questions[..|questions| - 1], responses, prior)
    ensures Complete(questions, responses, r)
  {
    var n := |questions| - 1;
    assert forall i :: 0 <= i < n ==> questions[..n][i] == questions[i];
    assert forall k :: 0 <= k < |prior| ==> r[k] == prior[k];
    assert HasIndex(r, n);
    forall i | 0 <= i < n ensures HasIndex(r, i) <==> HasIndex(prior, i) {
      if HasIndex(r, i) {
        var k :| 0 <= k < |r| && r[k].index == i;
        assert prior[k].index == i;
      }
      if HasIndex(prior, i) {
        var k :| 0 <= k < |prior| && prior[k].index == i;
        assert r[k].index == i;
      }
    }
  }

  /** `gen_result` on what `get_votes` left behind. */
  function GenResult(ing: Ingest): (s: Summary)
    requires forall q :: q in ing.questions ==> q in ing.responses
    ensures Describes(ing.questions, ing.responses, s.sections)
    ensures Ascending(s.sections)
    ensures Complete(ing.questions, ing.responses, s.sections)
    ensures s.rogue == ing.rogue
  {
    Summary(Sections(ing.questions, ing.responses), ing.rogue)
  }

  /** When every question has the same total `v`, either all are skipped
      (`v` is 0) or each gets its own section, in order, with total `v` and
      shares adding up to 1. */
  lemma SectionsOfEqualTotals(questions: seq<string>, responses: map<string, Histogram>, v: nat)
    requires forall q :: q in questions ==> q in responses && Total(responses[q]) == v
    ensures var r := Sections(questions, responses);
      && (v == 0 ==> r == [])
      && (v > 0 ==>
            && |r| == |questions|
            && forall k :: 0 <= k < |r| ==>
                 && r[k].index == k
                 && r[k].question == questions[k]
                 && r[k].total == v
                 && SumShares(r[k].lines) == 1.0)
  {
    var r := Sections(questions, responses);
    if v == 0 {
    } else {
      forall i | 0 <= i < |questions| ensures HasIndex(r, i) {
        assert questions[i] in questions;
      }
      AscendingCover(r, |questions|);
      forall k | 0 <= k < |r|
        ensures SumShares(r[k].lines) == 1.0
      {
        assert r[k].question in questions;
        SharesSumToOne(responses[r[k].question]);
      }
    }
  }

  /** The result file of a votefile whose header names each field once:
      with no registered code in the file every question is skipped;
      otherwise every header field gets a section, in header order, whose
      total is the number of distinct registered codes and whose shares add
      up to 1. */
  lemma ResultOfVotefile(ids: map<Key, string>, rogue: set<Key>, header: seq<string>, rows: seq<Row>)
    requires GetVotes(ids, rogue, header, rows).Ok?
    requires Distinct(header)
    ensures var ing := GetVotes(ids, rogue, header, rows).value;
      var sections := GenResult(ing).sections;
      var voters := |RegisteredCodes(ids, rows)|;
      && (voters == 0 ==> sections == [])
      && (voters > 0 ==>
            && |sections| == |header|
            && forall k :: 0 <= k < |sections| ==>
                 && sections[k].index == k
                 && sections[k].question == header[k]
                 && sections[k].total == voters
                 && SumShares(sections[k].lines) == 1.0)
  {
    var ing := GetVotes(ids, rogue, header, rows).value;
    TotalsOfDistinctHeader(ids, rogue, header, rows);
    SectionsOfEqualTotals(ing.questions, ing.responses, |RegisteredCodes(ids, rows)|);
  }

  /** The voterids table written by `add_emails` never holds a null code,
      so reading a votefile against it fails only for a missing `voterid`
      column. */
  lemma RegistryVotesFailOnlyWithoutColumn(reg: Voters.Registry, rogue: set<Key>, header: seq<string>, rows: seq<Row>)
    ensures GetVotes(Voters.VoterIds(reg.entries), rogue, header, rows).Err?
      <==> VoterIdColumn !in header
    ensures VoterIdColumn !in header ==>
      GetVotes(Voters.VoterIds(reg.entries), rogue, header, rows) == Err(NoVoterIdColumn)
  {
  }

  /** Ascending section indices below `n` that hit every index below `n`
      are exactly 0, 1, ..., n - 1. */
  lemma AscendingCover(r: seq<Section>, n: nat)
    requires Ascending(r)
    requires forall k :: 0 <= k < |r| ==> r[k].index < n
    requires forall i :: 0 <= i < n ==> HasIndex(r, i)
    ensures |r| == n
    ensures forall k :: 0 <= k < |r| ==> r[k].index == k
  {
    AtLeastPosition(r);
    if n > 0 {
      IndexIsPosition(r, n, n - 1);
      assert r[n - 1].index == n - 1;
    }
    if |r| > 0 {
      assert r[|r| - 1].index >= |r| - 1;
    }
  }

  lemma {:induction false} IndexIsPosition(r: seq<Section>, n: nat, i: nat)
    requires Ascending(r)
    requires forall k :: 0 <= k < |r| ==> r[k].index >= k
    requires forall m :: 0 <= m < n ==> HasIndex(r, m)
    requires i < n
    ensures i < |r|
    ensures forall j :: 0 <= j <= i ==> r[j].index == j
  {
    if i > 0 {
      IndexIsPosition(r, n, i - 1);
    }
    assert HasIndex(r, i);
    var k :| 0 <= k < |r| && r[k].index == i;
    assert k == i;
  }

  lemma {:induction false} AtLeastPosition(r: seq<Section>)
    requires Ascending(r)
    ensures forall k :: 0 <= k < |r| ==> r[k].index >= k
  {
    if |r| > 0 {
      var p := r[..|r| - 1];
      assert Ascending(p);
      AtLeastPosition(p);
      assert forall k :: 0 <= k < |p| ==> p[k] == r[k];
      if |r| > 1 {
        assert r[|r| - 2].index < r[|r| - 1].index;
      }
    }
  }
}

=== FILE: seqs.dfy ===
/** Sequence facts used throughout: distinctness, multiplicity and
    first-occurrence order, the order in which a Python dict keeps its keys. */
module Seqs {
  import opened Common

  /** No element occurs twice. */
  predicate Distinct<T(==)>(s: seq<T>) {
    forall i, j :: 0 <= i < j < |s| ==> s[i] != s[j]
  }

  /** How many times `x` occurs in `s`. */
  function Count<T(==)>(s: seq<T>, x: T): (n: nat)
    ensures n <= |s|
    ensures n > 0 <==> x in s
  {
    if |s| == 0 then 0
    else
      assert s == s[..|s| - 1] + [s[|s| - 1]];
      Count(s[..|s| - 1], x) + (if s[|s| - 1] == x then 1 else 0)
  }

  /** The index at which `x` first occurs in `s`. */
  function FirstIndex<T(==)>(s: seq<T>, x: T): (i: nat)
    requires x in s
    ensures i < |s| && s[i] == x && x !in s[..i]
  {
    assert s == s[..|s| - 1] + [s[|s| - 1]];
    if x in s[..|s| - 1] then
      var i := FirstIndex(s[..|s| - 1], x);
      assert s[..i] == s[..|s| - 1][..i];
      i
    else |s| - 1
  }

  /** The elements of `s` without repetitions, each kept where it first
      occurs: the key order of a Python dict filled from `s`. */
  function Dedupe<T(==, !new)>(s: seq<T>): (r: seq<T>)
    ensures Distinct(r)
    ensures forall x :: x in r <==> x in s
    ensures forall a, b :: 0 <= a < b < |r| ==> FirstIndex(s, r[a]) < FirstIndex(s, r[b])
  {
    if |s| == 0 then []
    else
      var p := Dedupe(s[..|s| - 1]);
      var x := s[|s| - 1];
      assert s == s[..|s| - 1] + [x];
      FirstIndexOfPrefix(s, p);
      if x in p then p else p + [x]
  }

  /** The key order of an insertion-ordered dict after assigning key `x`:
      a key already present keeps its place, a new key goes last. */
  function Noted<T(==)>(keys: seq<T>, x: T): seq<T> {
    if x in keys then keys else keys + [x]
  }

  /** Filling a dict from one more element notes that element's key. */
  lemma DedupeSnoc<T(!new)>(s: seq<T>, x: T)
    ensures Dedupe(s + [x]) == Noted(Dedupe(s), x)
  {
    assert (s + [x])[..|s|] == s;
  }

  /** Growing a sequence at its end does not move the first occurrence of
      anything that already occurred. */
  lemma FirstIndexOfPrefix<T>(s: seq<T>, p: seq<T>)
    requires |s| > 0
    requires forall y :: y in p ==> y in s[..|s| - 1]
    ensures forall y :: y in p ==> FirstIndex(s, y) == FirstIndex(s[..|s| - 1], y)
  {
    forall y | y in p
      ensures FirstIndex(s, y) == FirstIndex(s[..|s| - 1], y)
    {
      var i := FirstIndex(s[..|s| - 1], y);
      var k := FirstIndex(s, y);
      assert s[..|s| - 1][..i] == s[..i];
    }
  }

  /** A sequence without repetitions has as many distinct elements as it
      has positions. */
  lemma {:induction false} DistinctCard<T>(s: seq<T>)
    requires Distinct(s)
    ensures |set x | x in s| == |s|
  {
    if |s| > 0 {
      var p := s[..|s| - 1];
      var x := s[|s| - 1];
      assert s == p + [x];
      DistinctCard(p);
      assert (set y | y in s) == (set y | y in p) + {x};
      assert x !in (set y | y in p);
    }
  }

  /** Appending keeps a sequence repetition-free exactly when the new
      element is new. */
  lemma DistinctSnoc<T>(s: seq<T>, x: T)
    ensures Distinct(s + [x]) <==> Distinct(s) && x !in s
  {
    var t := s + [x];
    if Distinct(t) {
      forall i, j | 0 <= i < j < |s| ensures s[i] != s[j] {
        assert t[i] == s[i] && t[j] == s[j];
      }
      assert x !in s by {
        forall i | 0 <= i < |s| ensures s[i] != x {
          assert t[i] == s[i] && t[|s|] == x;
        }
      }
    }
  }

  /** A sequence without repetitions is its own `Dedupe`. */
  lemma {:induction false} DedupeDistinct<T(!new)>(s: seq<T>)
    requires Distinct(s)
    ensures Dedupe(s) == s
  {
    if |s| > 0 {
      var p := s[..|s| - 1];
      assert s == p + [s[|s| - 1]];
      DistinctSnoc(p, s[|s| - 1]);
      DedupeDistinct(p);
    }
  }

  /** The last position of `x` in `s`, if any. */
  function LastIndex<T(==)>(s: seq<T>, x: T): (r: Option<nat>)
    ensures r.None? <==> x !in s
    ensures r.Some? ==> r.value < |s| && s[r.value] == x && x !in s[r.value + 1..]
  {
    if |s| == 0 then None
    else if s[|s| - 1] == x then Some(|s| - 1)
    else
      assert s == s[..|s| - 1] + [s[|s| - 1]];
      match LastIndex(s[..|s| - 1], x)
      case None => None
      case Some(k) =>
        assert s[k + 1..] == s[..|s| - 1][k + 1..] + [s[|s| - 1]];
        Some(k)
  }

  /** Prepending keeps a sequence repetition-free exactly when the new
      element is new. */
  lemma DistinctCons<T>(x: T, s: seq<T>)
    ensures Distinct([x] + s) <==> Distinct(s) && x !in s
  {
    var t := [x] + s;
    if Distinct(t) {
      forall i, j | 0 <= i < j < |s| ensures s[i] != s[j] {
        assert t[i + 1] == s[i] && t[j + 1] == s[j];
      }
      assert x !in s by {
        forall i | 0 <= i < |s| ensures s[i] != x {
          assert t[i + 1] == s[i] && t[0] == x;
        }
      }
    }
  }

  /** In a sequence without repetitions every element occurs once. */
  lemma {:induction false} CountInDistinct<T>(s: seq<T>, x: T)
    requires Distinct(s) && x in s
    ensures Count(s, x) == 1
  {
    var p := s[..|s| - 1];
    assert s == p + [s[|s| - 1]];
    DistinctSnoc(p, s[|s| - 1]);
    if s[|s| - 1] != x {
      CountInDistinct(p, x);
    }
  }
}

=== FILE: tally.dfy ===
/** The counting half of `get_votes` (typevote.py:58-95): the integrity
    checks, then one histogram per header field filled from the ballots of
    registered codes, with every other code set aside as rogue. */
module Tally {
  import opened Common
  import opened Seqs
  import opened Ballots

  /** One answer of a question and how many ballots gave it. */
  datatype Bin = Bin(answer: Option<string>, count: nat)

  /** A question's histogram, `responses[q]`, as its insertion-ordered
      items. */
  type Histogram = seq<Bin>

  function Answers(h: Histogram): seq<Option<string>> {
    seq(|h|, i requires 0 <= i < |h| => h[i].answer)
  }

  /** How many ballots gave answer `a`. */
  function CountOf(h: Histogram, a: Option<string>): nat {
    if |h| == 0 then 0 else (if h[0].answer == a then h[0].count else 0) + CountOf(h[1..], a)
  }

  /** The number of ballots counted in the histogram, the `total_votes` of
      `gen_result` (typevote.py:103). */
  function Total(h: Histogram): (n: nat)
    ensures forall a :: CountOf(h, a) <= n
  {
    if |h| == 0 then 0 else h[0].count + Total(h[1..])
  }

  /** Every item of the histogram has been counted at least once, as every
      key of a `responses[q]` dict has. */
  predicate Positive(h: Histogram) {
    forall i :: 0 <= i < |h| ==> h[i].count > 0
  }

  /** An answer is listed in a positive histogram exactly when it was given. */
  lemma {:induction false} ListedIffCounted(h: Histogram, a: Option<string>)
    requires Positive(h)
    ensures a in Answers(h) <==> CountOf(h, a) > 0
  {
    if |h| > 0 {
      assert Positive(h[1..]);
      ListedIffCounted(h[1..], a);
      assert Answers(h) == [h[0].answer] + Answers(h[1..]);
    }
  }

  /** A positive histogram totals 0 exactly when it is empty. */
  lemma TotalZeroIffEmpty(h: Histogram)
    requires Positive(h)
    ensures Total(h) == 0 <==> h == []
  {
    if |h| > 0 {
      assert h[0].count > 0;
    }
  }

  /** `responses[q][a] += 1`, or `= 1` for an answer not seen before
      (typevote.py:88-91). */
  function Bump(h: Histogram, a: Option<string>): (r: Histogram)
    ensures forall b :: b in Answers(r) <==> b in Answers(h) || b == a
    ensures Distinct(Answers(h)) ==> Distinct(Answers(r))
    ensures CountOf(r, a) == CountOf(h, a) + 1
    ensures forall b :: b != a ==> CountOf(r, b) == CountOf(h, b)
    ensures Total(r) == Total(h) + 1
    ensures Positive(h) ==> Positive(r)
  {
    if |h| == 0 then
      assert Answers([Bin(a, 1)]) == [a];
      [Bin(a, 1)]
    else if h[0].answer == a then
      var r := [Bin(a, h[0].count + 1)] + h[1..];
      assert Answers(r) == Answers(h);
      assert Answers(h)[0] == a;
      r
    else
      var rest := Bump(h[1..], a);
      var r := [h[0]] + rest;
      assert Answers(h) == [h[0].answer] + Answers(h[1..]);
      assert Answers(r) == [h[0].answer] + Answers(rest);
      assert r[1..] == rest;
      assert Positive(h) ==> Positive(h[1..]);
      DistinctCons(h[0].answer, Answers(h[1..]));
      DistinctCons(h[0].answer, Answers(rest));
      r
  }

  lemma AnswersCons(b: Bin, t: Histogram)
    ensures Answers([b] + t) == [b.answer] + Answers(t)
  {
  }

  /** `Bump` updates the histogram as a dict: an answer already listed keeps
      its place, a new answer goes last. */
  lemma {:induction false} BumpOrder(h: Histogram, a: Option<string>)
    ensures Answers(Bump(h, a)) == Noted(Answers(h), a)
  {
    if |h| == 0 {
      assert Answers(Bump(h, a)) == [a];
    } else {
      AnswersCons(h[0], h[1..]);
      assert h == [h[0]] + h[1..];
      if h[0].answer == a {
        AnswersCons(Bin(a, h[0].count + 1), h[1..]);
      } else {
        BumpOrder(h[1..], a);
        AnswersCons(h[0], Bump(h[1..], a));
        assert a in Answers(h) <==> a in Answers(h[1..]);
        if a !in Answers(h) {
          assert [h[0].answer] + (Answers(h[1..]) + [a]) == ([h[0].answer] + Answers(h[1..])) + [a];
        }
      }
    }
  }

  /** Every histogram of `resp` lists each answer once, as a dict does. */
  ghost predicate KeyedOnce(resp: map<string, Histogram>) {
    forall q :: q in resp ==> Distinct(Answers(resp[q]))
  }

  /** Every histogram of `resp` is positive. */
  ghost predicate AllPositive(resp: map<string, Histogram>) {
    forall q :: q in resp ==> Positive(resp[q])
  }

  /** One registered ballot passing through the inner loop (typevote.py:86-91):
      every header field in order, so a field named twice is counted twice. */
  function Record(resp: map<string, Histogram>, header: seq<string>, row: Row): (r: map<string, Histogram>)
    requires forall q :: q in header ==> q in resp
    ensures r.Keys == resp.Keys
    ensures KeyedOnce(resp) ==> KeyedOnce(r)
    ensures AllPositive(resp) ==> AllPositive(r)
    ensures forall q, a :: q in resp ==>
      CountOf(r[q], a) == CountOf(resp[q], a) + (if Cell(row, q) == a then Count(header, q) else 0)
    ensures forall q :: q in resp ==> Total(r[q]) == Total(resp[q]) + Count(header, q)
  {
    if |header| == 0 then resp
    else
      var q := header[|header| - 1];
      var m := Record(resp, header[..|header| - 1], row);
      var r := m[q := Bump(m[q], Cell(row, q))];
      RecordStep(resp, header, row, m, r);
      BumpKeepsShape(m, q, Cell(row, q));
      r
  }

  /** Bumping one histogram keeps every histogram keyed once and positive. */
  lemma BumpKeepsShape(m: map<string, Histogram>, q: string, cell: Option<string>)
    requires q in m
    ensures KeyedOnce(m) ==> KeyedOnce(m[q := Bump(m[q], cell)])
    ensures AllPositive(m) ==> AllPositive(m[q := Bump(m[q], cell)])
  {
    var r := m[q := Bump(m[q], cell)];
    forall p | p in r ensures r[p] == if p == q then Bump(m[q], cell) else m[p] {
    }
  }

  lemma RecordStep(resp: map<string, Histogram>, header: seq<string>, row: Row,
                   m: map<string, Histogram>, r: map<string, Histogram>)
    requires |header| > 0
    requires var q := header[|header| - 1]; q in m && r == m[q := Bump(m[q], Cell(row, q))]
    requires m.Keys == resp.Keys
    requires forall q, a :: q in resp ==>
      CountOf(m[q], a) == CountOf(resp[q], a) + (if Cell(row, q) == a then Count(header[..|header| - 1], q) else 0)
    requires forall q :: q in resp ==> Total(m[q]) == Total(resp[q]) + Count(header[..|header| - 1], q)
    ensures forall q, a :: q in resp ==>
      CountOf(r[q], a) == CountOf(resp[q], a) + (if Cell(row, q) == a then Count(header, q) else 0)
    ensures forall q :: q in resp ==> Total(r[q]) == Total(resp[q]) + Count(header, q)
  {
    var last := header[|header| - 1];
    var cell := Cell(row, last);
    forall q, a | q in resp
      ensures CountOf(r[q], a) == CountOf(resp[q], a) + (if Cell(row, q) == a then Count(header, q) else 0)
    {
      assert Count(header, q) == Count(header[..|header| - 1], q) + (if q == last then 1 else 0);
      if q == last {
        assert r[q] == Bump(m[q], cell);
        assert CountOf(r[q], a) == CountOf(m[q], a) + (if cell == a then 1 else 0);
      } else {
        assert r[q] == m[q];
      }
    }
    forall q | q in resp
      ensures Total(r[q]) == Total(resp[q]) + Count(header, q)
    {
      assert Count(header, q) == Count(header[..|header| - 1], q) + (if q == last then 1 else 0);
      if q != last {
        assert r[q] == m[q];
      }
    }
  }

  /** After one ballot, a question of the header has noted the ballot's
      answer in its histogram's order; any other histogram is untouched. */
  lemma {:induction false} RecordOrder(resp: map<string, Histogram>, header: seq<string>, row: Row, q: string)
    requires forall p :: p in header ==> p in resp
    requires q in resp
    ensures Answers(Record(resp, header, row)[q]) ==
      if q in header then Noted(Answers(resp[q]), Cell(row, q)) else Answers(resp[q])
  {
    if |header| > 0 {
      var last := header[|header| - 1];
      var init := header[..|header| - 1];
      var m := Record(resp, init, row);
      var r := Record(resp, header, row);
      assert r[q] == if q == last then Bump(m[q], Cell(row, q)) else m[q];
      RecordOrder(resp, init, row, q);
      if q == last {
        BumpOrder(m[q], Cell(row, q));
      }
      InitOrLast(header, q);
      NotedAgain(Answers(resp[q]), Cell(row, q), Answers(m[q]), Answers(r[q]), q in init, q == last);
    }
  }

  lemma InitOrLast<T>(s: seq<T>, x: T)
    requires |s| > 0
    ensures x in s <==> x in s[..|s| - 1] || x == s[|s| - 1]
  {
    assert s == s[..|s| - 1] + [s[|s| - 1]];
  }

  /** Noting an answer once more changes nothing. */
  lemma NotedAgain<T>(x: seq<T>, c: T, before: seq<T>, after: seq<T>, early: bool, now: bool)
    requires before == if early then Noted(x, c) else x
    requires after == if now then Noted(before, c) else before
    ensures after == if early || now then Noted(x, c) else x
  {
  }

  /** The tallies being built: `responses` and `rogue_voterids`. */
  datatype Tallies = Tallies(responses: map<string, Histogram>, rogue: set<Key>)

  /** How many ballots of registered codes gave answer `a` to `q`. */
  function Agreeing(ids: map<Key, string>, votes: seq<Ballot>, q: string, a: Option<string>): nat {
    if |votes| == 0 then 0
    else
      var b := votes[|votes| - 1];
      Agreeing(ids, votes[..|votes| - 1], q, a) + (if b.key in ids && Cell(b.row, q) == a then 1 else 0)
  }

  /** The answers to `q` of the ballots of registered codes, in ballot order. */
  function Given(ids: map<Key, string>, votes: seq<Ballot>, q: string): seq<Option<string>> {
    if |votes| == 0 then []
    else
      var b := votes[|votes| - 1];
      Given(ids, votes[..|votes| - 1], q) + (if b.key in ids then [Cell(b.row, q)] else [])
  }

  /** How many ballots carry a registered code. */
  function Registered(ids: map<Key, string>, votes: seq<Ballot>): nat {
    if |votes| == 0 then 0
    else Registered(ids, votes[..|votes| - 1]) + (if votes[|votes| - 1].key in ids then 1 else 0)
  }

  /** The codes of ballots that are not registered. */
  function Rogues(ids: map<Key, string>, votes: seq<Ballot>): set<Key> {
    set i | 0 <= i < |votes| && votes[i].key !in ids :: votes[i].key
  }

  /** The second loop of `get_votes` (typevote.py:78-91) over the stored
      ballots, in order. A ballot whose code is not a key of `voterids` only
      adds its code to the rogue set. */
  function TallyVotes(ids: map<Key, string>, header: seq<string>, votes: seq<Ballot>, start: Tallies): (r: Tallies)
    requires forall q :: q in header ==> q in start.responses
    ensures r.responses.Keys == start.responses.Keys
    ensures KeyedOnce(start.responses) ==> KeyedOnce(r.responses)
    ensures AllPositive(start.responses) ==> AllPositive(r.responses)
    ensures r.rogue == start.rogue + Rogues(ids, votes)
    ensures forall q, a :: q in start.responses ==>
      CountOf(r.responses[q], a) == CountOf(start.responses[q], a) + Count(header, q) * Agreeing(ids, votes, q, a)
    ensures forall q :: q in start.responses ==>
      Total(r.responses[q]) == Total(start.responses[q]) + Count(header, q) * Registered(ids, votes)
  {
    if |votes| == 0 then start
    else
      var p := votes[..|votes| - 1];
      var b := votes[|votes| - 1];
      var t := TallyVotes(ids, header, p, start);
      RoguesSnoc(ids, votes);
      if b.key !in ids then
        t.(rogue := t.rogue + {b.key})
      else
        var r := Record(t.responses, header, b.row);
        CountsAfterRecord(ids, header, votes, start.responses, t.responses, r);
        t.(responses := r)
  }

  lemma RoguesSnoc(ids: map<Key, string>, votes: seq<Ballot>)
    requires |votes| > 0
    ensures var b := votes[|votes| - 1];
      Rogues(ids, votes) == Rogues(ids, votes[..|votes| - 1]) + (if b.key !in ids then {b.key} else {})
  {
    assert votes == votes[..|votes| - 1] + [votes[|votes| - 1]];
  }

  /** The arithmetic of one registered ballot: `n * (k + 1) == n * k + n`. */
  lemma CountsAfterRecord(ids: map<Key, string>, header: seq<string>, votes: seq<Ballot>,
                          start: map<string, Histogram>, before: map<string, Histogram>, after: map<string, Histogram>)
    requires |votes| > 0 && votes[|votes| - 1].key in ids
    requires before.Keys == start.Keys && after.Keys == start.Keys
    requires forall q, a :: q in start ==>
      CountOf(before[q], a) == CountOf(start[q], a) + Count(header, q) * Agreeing(ids, votes[..|votes| - 1], q, a)
    requires forall q :: q in start ==>
      Total(before[q]) == Total(start[q]) + Count(header, q) * Registered(ids, votes[..|votes| - 1])
    requires forall q, a :: q in start ==>
      CountOf(after[q], a) == CountOf(before[q], a) + (if Cell(votes[|votes| - 1].row, q) == a then Count(header, q) else 0)
    requires forall q :: q in start ==> Total(after[q]) == Total(before[q]) + Count(header, q)
    ensures forall q, a :: q in start ==>
      CountOf(after[q], a) == CountOf(start[q], a) + Count(header, q) * Agreeing(ids, votes, q, a)
    ensures forall q :: q in start ==>
      Total(after[q]) == Total(start[q]) + Count(header, q) * Registered(ids, votes)
  {
    var p := votes[..|votes| - 1];
    var b := votes[|votes| - 1];
    forall q, a | q in start
      ensures CountOf(after[q], a) == CountOf(start[q], a) + Count(header, q) * Agreeing(ids, votes, q, a)
    {
      var n := Count(header, q);
      var k := Agreeing(ids, p, q, a);
      var d := if Cell(b.row, q) == a then 1 else 0;
      assert Agreeing(ids, votes, q, a) == k + d;
      MulSucc(n, k, d);
    }
    forall q | q in start
      ensures Total(after[q]) == Total(start[q]) + Count(header, q) * Registered(ids, votes)
    {
      var n := Count(header, q);
      var k := Registered(ids, p);
      assert Registered(ids, votes) == k + 1;
      MulSucc(n, k, 1);
    }
  }

  lemma MulSucc(n: nat, k: nat, d: nat)
    requires d <= 1
    ensures n * (k + d) == n * k + (if d == 1 then n else 0)
  {
  }

  /** `responses = {fieldname: {} for fieldname in qlist}` (typevote.py:77),
      with the rogue set carried over. */
  function Blank(header: seq<string>, rogue: set<Key>): (t: Tallies)
    ensures t.responses.Keys == set q | q in header
    ensures KeyedOnce(t.responses)
    ensures forall q :: q in t.responses ==> t.responses[q] == []
    ensures forall q :: q in t.responses ==> Total(t.responses[q]) == 0 && forall a :: CountOf(t.responses[q], a) == 0
  {
    Tallies(map q | q in header :: [], rogue)
  }

  /** What one `get_votes` call leaves behind: how many records it read,
      the stored ballots, the question order, the histograms and the rogue
      codes collected so far. */
  datatype Ingest = Ingest(
    records: nat,
    votes: seq<Ballot>,
    questions: seq<string>,
    responses: map<string, Histogram>,
    rogue: set<Key>)

  /** `get_votes` on a votefile already split into its header and rows.
      `ids` is `voterids`; `rogue` is the rogue set of earlier calls, which
      the source never clears. */
  function GetVotes(ids: map<Key, string>, rogue: set<Key>, header: seq<string>, rows: seq<Row>): (r: Result<Ingest>)
    ensures r.Err? <==> None in ids || VoterIdColumn !in header
    ensures None in ids ==> r == Err(NullVoterId)
    ensures None !in ids && VoterIdColumn !in header ==> r == Err(NoVoterIdColumn)
    ensures r.Ok? ==>
      && r.value.records == |rows|
      && Keys(r.value.votes) == Dedupe(RowKeys(rows))
      && (forall i :: 0 <= i < |r.value.votes| ==>
            r.value.votes[i].key in Final(rows) && Final(rows)[r.value.votes[i].key] == r.value.votes[i].row)
      && r.value.questions == Dedupe(header)
      && r.value.responses.Keys == set q | q in header
      && KeyedOnce(r.value.responses)
      && AllPositive(r.value.responses)
  {
    if None in ids then Err(NullVoterId)
    else if VoterIdColumn !in header then Err(NoVoterIdColumn)
    else
      var votes := Retain(rows);
      var t := TallyVotes(ids, header, votes, Blank(header, rogue));
      Ok(Ingest(|rows|, votes, Dedupe(header), t.responses, t.rogue))
  }

  /** With a header that names each field once, the questions are the
      header itself and every question's total is the number of distinct
      registered codes in the votefile. */
  lemma TotalsOfDistinctHeader(ids: map<Key, string>, rogue: set<Key>, header: seq<string>, rows: seq<Row>)
    requires GetVotes(ids, rogue, header, rows).Ok?
    requires Distinct(header)
    ensures var r := GetVotes(ids, rogue, header, rows).value;
      && r.questions == header
      && forall q :: q in header ==> q in r.responses && Total(r.responses[q]) == |RegisteredCodes(ids, rows)|
  {
    DedupeDistinct(header);
    GetVotesCountsLastBallots(ids, rogue, header, rows);
    forall q | q in header ensures Count(header, q) == 1 {
      CountInDistinct(header, q);
    }
  }

  /** The codes of the votefile that are keys of `voterids`. */
  function RegisteredCodes(ids: map<Key, string>, rows: seq<Row>): set<Key> {
    set k | k in RowKeys(rows) && k in ids
  }

  /** The codes of the votefile that are not keys of `voterids`. */
  function RogueCodes(ids: map<Key, string>, rows: seq<Row>): set<Key> {
    set k | k in RowKeys(rows) && k !in ids
  }

  /** The registered codes whose last row answers `a` to question `q`. */
  function Supporters(ids: map<Key, string>, rows: seq<Row>, q: string, a: Option<string>): set<Key> {
    var votes := Final(rows);
    set k | k in votes && k in ids && Cell(votes[k], q) == a
  }

  /** The registered codes among `votes` that answer `a` to `q`. */
  function AgreeingKeys(ids: map<Key, string>, votes: seq<Ballot>, q: string, a: Option<string>): set<Key> {
    set i | 0 <= i < |votes| && votes[i].key in ids && Cell(votes[i].row, q) == a :: votes[i].key
  }

  /** The registered codes among `votes`. */
  function RegisteredKeys(ids: map<Key, string>, votes: seq<Ballot>): set<Key> {
    set i | 0 <= i < |votes| && votes[i].key in ids :: votes[i].key
  }

  lemma KeysSnoc(ids: map<Key, string>, votes: seq<Ballot>, q: string, a: Option<string>)
    requires |votes| > 0
    ensures var p := votes[..|votes| - 1];
      var b := votes[|votes| - 1];
      && AgreeingKeys(ids, votes, q, a) == AgreeingKeys(ids, p, q, a) + (if b.key in ids && Cell(b.row, q) == a then {b.key} else {})
      && RegisteredKeys(ids, votes) == RegisteredKeys(ids, p) + (if b.key in ids then {b.key} else {})
  {
    assert votes == votes[..|votes| - 1] + [votes[|votes| - 1]];
  }

  /** With distinct codes, the last ballot's code is not among the others. */
  lemma LastKeyIsNew(ids: map<Key, string>, votes: seq<Ballot>, q: string, a: Option<string>)
    requires |votes| > 0 && Distinct(Keys(votes))
    ensures var p := votes[..|votes| - 1];
      var b := votes[|votes| - 1];
      && Distinct(Keys(p))
      && b.key !in AgreeingKeys(ids, p, q, a)
      && b.key !in RegisteredKeys(ids, p)
  {
    var p := votes[..|votes| - 1];
    var b := votes[|votes| - 1];
    assert Keys(votes) == Keys(p) + [b.key];
    DistinctSnoc(Keys(p), b.key);
    assert forall i :: 0 <= i < |p| ==> Keys(p)[i] == p[i].key;
  }

  /** Over ballots with distinct codes, counting ballots is counting codes. */
  lemma {:induction false} TalliedCard(ids: map<Key, string>, votes: seq<Ballot>, q: string, a: Option<string>)
    requires Distinct(Keys(votes))
    ensures Agreeing(ids, votes, q, a) == |AgreeingKeys(ids, votes, q, a)|
    ensures Registered(ids, votes) == |RegisteredKeys(ids, votes)|
  {
    if |votes| > 0 {
      LastKeyIsNew(ids, votes, q, a);
      TalliedCard(ids, votes[..|votes| - 1], q, a);
      KeysSnoc(ids, votes, q, a);
    }
  }

  /** The whole of `get_votes`, stated without its loops: for every header
      field `q` and answer `a`, the histogram counts the registered codes
      whose last row answers `a`, once per time `q` occurs in the header;
      the histogram total is the number of distinct registered codes (times
      that multiplicity); and exactly the unregistered codes are added to
      the rogue set, each once. */
  lemma GetVotesCountsLastBallots(ids: map<Key, string>, rogue: set<Key>, header: seq<string>, rows: seq<Row>)
    requires GetVotes(ids, rogue, header, rows).Ok?
    ensures var r := GetVotes(ids, rogue, header, rows).value;
      && (forall q, a :: q in header ==>
            CountOf(r.responses[q], a) == Count(header, q) * |Supporters(ids, rows, q, a)|)
      && (forall q :: q in header ==>
            Total(r.responses[q]) == Count(header, q) * |RegisteredCodes(ids, rows)|)
      && r.rogue == rogue + RogueCodes(ids, rows)
  {
    var votes := Retain(rows);
    var t := TallyVotes(ids, header, votes, Blank(header, rogue));
    assert GetVotes(ids, rogue, header, rows) == Ok(Ingest(|rows|, votes, Dedupe(header), t.responses, t.rogue));
    TallyFromBlank(ids, header, votes, rogue);
    RetainedCodes(ids, rows);
    forall q, a | q in header
      ensures CountOf(t.responses[q], a) == Count(header, q) * |Supporters(ids, rows, q, a)|
    {
      TalliedCard(ids, votes, q, a);
      RetainedSupporters(ids, rows, q, a);
    }
    forall q | q in header
      ensures Total(t.responses[q]) == Count(header, q) * |RegisteredCodes(ids, rows)|
    {
      TalliedCard(ids, votes, q, None);
    }
  }

  /** Counting from the empty histograms lists each question's answers in
      the order the registered ballots first give them. */
  lemma {:induction false} TallyOrder(ids: map<Key, string>, header: seq<string>, votes: seq<Ballot>,
                                      rogue: set<Key>, q: string)
    requires q in header
    ensures Answers(TallyVotes(ids, header, votes, Blank(header, rogue)).responses[q]) == Dedupe(Given(ids, votes, q))
  {
    if |votes| == 0 {
      assert Blank(header, rogue).responses[q] == [];
    } else {
      var p := votes[..|votes| - 1];
      var b := votes[|votes| - 1];
      var t := TallyVotes(ids, header, p, Blank(header, rogue));
      TallyOrder(ids, header, p, rogue, q);
      if b.key in ids {
        assert TallyVotes(ids, header, votes, Blank(header, rogue)).responses == Record(t.responses, header, b.row);
        RecordOrder(t.responses, header, b.row, q);
        assert Given(ids, votes, q) == Given(ids, p, q) + [Cell(b.row, q)];
        DedupeSnoc(Given(ids, p, q), Cell(b.row, q));
      } else {
        assert TallyVotes(ids, header, votes, Blank(header, rogue)).responses == t.responses;
        assert Given(ids, votes, q) == Given(ids, p, q);
      }
    }
  }

  /** `get_votes` lists each question's answers in the order in which the
      stored ballots of registered codes first give them, as the `+= 1` and
      `= 1` updates of typevote.py:88-91 keep a dict's keys. */
  lemma HistogramOrder(ids: map<Key, string>, rogue: set<Key>, header: seq<string>, rows: seq<Row>, q: string)
    requires GetVotes(ids, rogue, header, rows).Ok?
    requires q in header
    ensures var r := GetVotes(ids, rogue, header, rows).value;
      Answers(r.responses[q]) == Dedupe(Given(ids, r.votes, q))
  {
    TallyOrder(ids, header, Retain(rows), rogue, q);
  }

  /** `TallyVotes` from the empty histograms `get_votes` starts with. */
  lemma TallyFromBlank(ids: map<Key, string>, header: seq<string>, votes: seq<Ballot>, rogue: set<Key>)
    ensures var t := TallyVotes(ids, header, votes, Blank(header, rogue));
      && (forall q, a :: q in header ==> CountOf(t.responses[q], a) == Count(header, q) * Agreeing(ids, votes, q, a))
      && (forall q :: q in header ==> Total(t.responses[q]) == Count(header, q) * Registered(ids, votes))
      && t.rogue == rogue + Rogues(ids, votes)
  {
  }

  /** The stored ballots carry exactly the codes of the file. */
  lemma RetainedCodes(ids: map<Key, string>, rows: seq<Row>)
    ensures var votes := Retain(rows);
      && RegisteredKeys(ids, votes) == RegisteredCodes(ids, rows)
      && Rogues(ids, votes) == RogueCodes(ids, rows)
  {
    var votes := Retain(rows);
    assert forall k :: k in Keys(votes) <==> k in RowKeys(rows);
    SameCodes(ids, votes, rows);
  }

  /** Ballots whose codes are those of the file split into registered and
      rogue codes as the file does. */
  lemma SameCodes(ids: map<Key, string>, votes: seq<Ballot>, rows: seq<Row>)
    requires forall k :: k in Keys(votes) <==> k in RowKeys(rows)
    ensures RegisteredKeys(ids, votes) == RegisteredCodes(ids, rows)
    ensures Rogues(ids, votes) == RogueCodes(ids, rows)
  {
    forall k | k in RowKeys(rows)
      ensures exists i :: 0 <= i < |votes| && votes[i].key == k
    {
      assert k in Keys(votes);
      var i :| 0 <= i < |votes| && Keys(votes)[i] == k;
      assert votes[i].key == k;
    }
    forall k | k in RegisteredKeys(ids, votes) ensures k in RegisteredCodes(ids, rows) {
      var i :| 0 <= i < |votes| && votes[i].key in ids && votes[i].key == k;
      assert Keys(votes)[i] == k;
    }
    forall k | k in Rogues(ids, votes) ensures k in RogueCodes(ids, rows) {
      var i :| 0 <= i < |votes| && votes[i].key !in ids && votes[i].key == k;
      assert Keys(votes)[i] == k;
    }
  }

  lemma RetainedSupporters(ids: map<Key, string>, rows: seq<Row>, q: string, a: Option<string>)
    ensures AgreeingKeys(ids, Retain(rows), q, a) == Supporters(ids, rows, q, a)
  {
    var votes := Retain(rows);
    forall k | k in Final(rows) ensures exists i :: 0 <= i < |votes| && votes[i].key == k {
      assert k in Keys(votes);
    }
  }

  /** Ballots of unregistered codes count for nothing: appending them to
      the votefile changes no histogram count and no total. */
  lemma RogueRowsCountForNothing(ids: map<Key, string>, rogue: set<Key>, header: seq<string>, rows: seq<Row>, extra: seq<Row>)
    requires GetVotes(ids, rogue, header, rows).Ok?
    requires forall x :: x in extra ==> KeyOf(x) !in ids
    ensures GetVotes(ids, rogue, header, rows + extra).Ok?
    ensures forall q, a :: q in header ==>
      CountOf(GetVotes(ids, rogue, header, rows + extra).value.responses[q], a)
        == CountOf(GetVotes(ids, rogue, header, rows).value.responses[q], a)
    ensures forall q :: q in header ==>
      Total(GetVotes(ids, rogue, header, rows + extra).value.responses[q])
        == Total(GetVotes(ids, rogue, header, rows).value.responses[q])
  {
    GetVotesCountsLastBallots(ids, rogue, header, rows);
    GetVotesCountsLastBallots(ids, rogue, header, rows + extra);
    SupportersIgnoreRogueRows(ids, rows, extra);
  }

  lemma SupportersIgnoreRogueRows(ids: map<Key, string>, rows: seq<Row>, extra: seq<Row>)
    requires forall x :: x in extra ==> KeyOf(x) !in ids
    ensures forall q, a :: Supporters(ids, rows + extra, q, a) == Supporters(ids, rows, q, a)
    ensures RegisteredCodes(ids, rows + extra) == RegisteredCodes(ids, rows)
  {
    assert RowKeys(rows + extra) == RowKeys(rows) + RowKeys(extra);
    forall k | k in ids
      ensures (k in Final(rows + extra) <==> k in Final(rows))
      ensures k in Final(rows) ==> Final(rows + extra)[k] == Final(rows)[k]
    {
      FinalIgnoresOtherCodes(rows, extra, k);
    }
  }

  /** `gen_result` writes one line per item of `responses[q]`
      (typevote.py:107-110): an answer is listed exactly when some
      registered code's last row gave it. */
  lemma ListedAnswersWereGiven(ids: map<Key, string>, rogue: set<Key>, header: seq<string>, rows: seq<Row>,
                               q: string, a: Option<string>)
    requires GetVotes(ids, rogue, header, rows).Ok?
    requires q in header
    ensures a in Answers(GetVotes(ids, rogue, header, rows).value.responses[q])
      <==> Supporters(ids, rows, q, a) != {}
  {
    var h := GetVotes(ids, rogue, header, rows).value.responses[q];
    GetVotesCountsLastBallots(ids, rogue, header, rows);
    ListedIffSupported(h, a, Count(header, q), |Supporters(ids, rows, q, a)|);
  }

  /** In a positive histogram whose count for `a` is `n` times `k`, with
      `n` positive, `a` is listed exactly when `k` is nonzero. */
  lemma ListedIffSupported(h: Histogram, a: Option<string>, n: nat, k: nat)
    requires Positive(h) && n > 0 && CountOf(h, a) == n * k
    ensures a in Answers(h) <==> k != 0
  {
    ListedIffCounted(h, a);
    ProductIsZero(n, k);
  }

  /** `gen_result` skips a question (typevote.py:103-105) exactly when no
      registered code voted at all. */
  lemma SkippedExactlyWithoutRegisteredVotes(ids: map<Key, string>, rogue: set<Key>, header: seq<string>, rows: seq<Row>, q: string)
    requires GetVotes(ids, rogue, header, rows).Ok?
    requires q in header
    ensures Total(GetVotes(ids, rogue, header, rows).value.responses[q]) == 0 <==> RegisteredCodes(ids, rows) == {}
  {
    GetVotesCountsLastBallots(ids, rogue, header, rows);
    var n := Count(header, q);
    var c := |RegisteredCodes(ids, rows)|;
    ProductIsZero(n, c);
  }

  lemma ProductIsZero(n: nat, c: nat)
    requires n > 0
    ensures n * c == 0 <==> c == 0
  {
    if c > 0 {
      assert n * c >= c;
    }
  }
}

=== FILE: text.dfy ===
/** Python's argument-less `str.strip()`, the only normalisation applied to
    an email address before it is hashed (typevote.py:31). */
module Text {

  /** The characters `str.isspace()` accepts: ASCII tab through carriage
      return, the information separators 0x1C-0x1F, space, NEL, no-break
      space and the Unicode space separators and line/paragraph separators. */
  predicate IsSpace(c: char) {
    || c == ' '
    || ('\t' <= c <= '\r')
    || ('\U{1C}' <= c <= '\U{1F}')
    || c == '\U{85}'
    || c == '\U{A0}'
    || c == '\U{1680}'
    || ('\U{2000}' <= c <= '\U{200A}')
    || c == '\U{2028}'
    || c == '\U{2029}'
    || c == '\U{202F}'
    || c == '\U{205F}'
    || c == '\U{3000}'
  }

  predicate AllSpace(s: string) {
    forall k :: 0 <= k < |s| ==> IsSpace(s[k])
  }

  /** Neither end of `s` is whitespace. */
  predicate Trimmed(s: string) {
    |s| == 0 || (!IsSpace(s[0]) && !IsSpace(s[|s| - 1]))
  }

  /** `r` is `s` with its leading and trailing whitespace cut off: a slice of
      `s` with only whitespace around it and no whitespace at either end. */
  ghost predicate StripOf(s: string, r: string) {
    exists i, j :: 0 <= i <= j <= |s| && r == s[i..j] && AllSpace(s[..i]) && AllSpace(s[j..]) && Trimmed(r)
  }

  function TrimStart(s: string): (r: string)
    ensures |r| <= |s| && r == s[|s| - |r|..]
    ensures AllSpace(s[..|s| - |r|])
    ensures |r| == 0 || !IsSpace(r[0])
  {
    if |s| > 0 && IsSpace(s[0]) then
      var r := TrimStart(s[1..]);
      var n := |s| - |r|;
      assert s[1..][n - 1..] == s[n..];
      SpacePrefix(s, n);
      r
    else s
  }

  function TrimEnd(s: string): (r: string)
    ensures |r| <= |s| && r == s[..|r|]
    ensures AllSpace(s[|r|..])
    ensures |r| == 0 || !IsSpace(r[|r| - 1])
  {
    if |s| > 0 && IsSpace(s[|s| - 1]) then
      var p := s[..|s| - 1];
      var r := TrimEnd(p);
      assert p[..|r|] == s[..|r|];
      SpaceSuffix(s, |r|);
      r
    else s
  }

  /** A space in front of an all-space run makes a longer all-space run. */
  lemma SpacePrefix(s: string, n: nat)
    requires 0 < n <= |s| && IsSpace(s[0]) && AllSpace(s[1..][..n - 1])
    ensures AllSpace(s[..n])
  {
    forall k | 0 <= k < n ensures IsSpace(s[..n][k]) {
      if k > 0 {
        assert s[..n][k] == s[1..][..n - 1][k - 1];
      }
    }
  }

  /** A space after an all-space run makes a longer all-space run. */
  lemma SpaceSuffix(s: string, n: nat)
    requires n < |s| && IsSpace(s[|s| - 1]) && AllSpace(s[..|s| - 1][n..])
    ensures AllSpace(s[n..])
  {
    forall k | 0 <= k < |s| - n ensures IsSpace(s[n..][k]) {
      if k < |s| - 1 - n {
        assert s[n..][k] == s[..|s| - 1][n..][k];
      }
    }
  }

  /** `str.strip()` without arguments. */
  function Strip(s: string): (r: string)
    ensures |r| <= |s|
  {
    TrimEnd(TrimStart(s))
  }

  /** `Strip` cuts only whitespace, from both ends, and leaves none at
      either end. */
  lemma StripIsStripOf(s: string)
    ensures StripOf(s, Strip(s))
  {
    var t := TrimStart(s);
    var r := TrimEnd(t);
    var i := |s| - |t|;
    var j := i + |r|;
    assert s[i..j] == r;
    assert s[j..] == t[|r|..];
    if |r| > 0 {
      assert r[0] == t[0];
    }
    assert Trimmed(r);
    assert 0 <= i <= j <= |s| && r == s[i..j] && AllSpace(s[..i]) && AllSpace(s[j..]) && Trimmed(r);
  }

  /** Where a non-blank strip result starts: the first non-space position. */
  lemma StripStart(s: string, r: string, i: nat, j: nat)
    requires 0 <= i <= j <= |s| && r == s[i..j] && AllSpace(s[..i]) && AllSpace(s[j..]) && Trimmed(r)
    requires |r| > 0
    ensures !IsSpace(s[i]) && i == j - |r|
    ensures forall k :: 0 <= k < i ==> IsSpace(s[k])
    ensures forall k :: j <= k < |s| ==> IsSpace(s[k])
    ensures !IsSpace(s[j - 1])
  {
    assert r[0] == s[i];
    assert r[|r| - 1] == s[j - 1];
    forall k | 0 <= k < i ensures IsSpace(s[k]) {
      assert s[..i][k] == s[k];
    }
    forall k | j <= k < |s| ensures IsSpace(s[k]) {
      assert s[j..][k - j] == s[k];
    }
  }

  /** A blank strip result means the whole input was whitespace. */
  lemma StripBlank(s: string, r: string, i: nat, j: nat)
    requires 0 <= i <= j <= |s| && r == s[i..j] && AllSpace(s[..i]) && AllSpace(s[j..])
    requires |r| == 0
    ensures forall k :: 0 <= k < |s| ==> IsSpace(s[k])
  {
    forall k | 0 <= k < |s| ensures IsSpace(s[k]) {
      if k < i {
        assert s[..i][k] == s[k];
      } else {
        assert s[j..][k - j] == s[k];
      }
    }
  }

  /** `StripOf` pins its result down: together with `Strip`'s contract this
      says `Strip` is exactly `str.strip()`. */
  lemma StripOfUnique(s: string, r1: string, r2: string)
    requires StripOf(s, r1) && StripOf(s, r2)
    ensures r1 == r2
  {
    var i1, j1 :| 0 <= i1 <= j1 <= |s| && r1 == s[i1..j1] && AllSpace(s[..i1]) && AllSpace(s[j1..]) && Trimmed(r1);
    var i2, j2 :| 0 <= i2 <= j2 <= |s| && r2 == s[i2..j2] && AllSpace(s[..i2]) && AllSpace(s[j2..]) && Trimmed(r2);
    if |r1| == 0 && |r2| == 0 {
    } else if |r1| == 0 {
      StripBlank(s, r1, i1, j1);
      StripStart(s, r2, i2, j2);
    } else if |r2| == 0 {
      StripBlank(s, r2, i2, j2);
      StripStart(s, r1, i1, j1);
    } else {
      StripStart(s, r1, i1, j1);
      StripStart(s, r2, i2, j2);
      assert i1 == i2;
      assert j1 == j2;
    }
  }

  /** Stripping twice is stripping once. */
  lemma StripIdempotent(s: string)
    ensures Strip(Strip(s)) == Strip(s)
  {
    var r := Strip(s);
    StripIsStripOf(s);
    StripIsStripOf(r);
    assert r[0..|r|] == r;
    assert StripOf(r, r) by {
      assert r == r[0..|r|] && AllSpace(r[..0]) && AllSpace(r[|r|..]);
    }
    StripOfUnique(r, Strip(r), r);
  }

  /** Whitespace never contains `@`, so testing the raw line for `@` (as
      typevote.py:30 does) is the same as testing the stripped address. */
  lemma AtSurvivesStrip(s: string)
    ensures '@' in s <==> '@' in Strip(s)
  {
    var r := Strip(s);
    StripIsStripOf(s);
    var i, j :| 0 <= i <= j <= |s| && r == s[i..j] && AllSpace(s[..i]) && AllSpace(s[j..]) && Trimmed(r);
    AtInsideSpaces(s, i, j);
  }

  /** An `@` of `s` lies inside any slice that has only whitespace around it. */
  lemma AtInsideSpaces(s: string, i: nat, j: nat)
    requires i <= j <= |s|
    requires AllSpace(s[..i]) && AllSpace(s[j..])
    ensures '@' in s <==> '@' in s[i..j]
  {
    assert !IsSpace('@');
    forall k | 0 <= k < i ensures s[k] != '@' {
      assert s[..i][k] == s[k];
    }
    forall k | j <= k < |s| ensures s[k] != '@' {
      assert s[j..][k - j] == s[k];
    }
    if '@' in s {
      var k :| 0 <= k < |s| && s[k] == '@';
      assert s[i..j][k - i] == '@';
    }
  }
}

=== FILE: voters.dfy ===
/** Voter registration: `Typevote.salted_hash`, `add_emails` and
    `gen_codefile` (typevote.py:21-56). The registry is the pair of the
    `voters` set and the `voterids` table; the table is kept as the sequence
    of its (code, email) entries in insertion order, which is the order a
    Python dict iterates in. */
module Voters {
  import opened Common
  import opened Seqs
  import opened Text

  /** The code length a new run uses (typevote.py:14). */
  const DefaultCodeLen: nat := 12

  /** What `salted_hash` depends on: the vote's salt, the code length and the
      hex digest, which is left uninterpreted (a total function value is
      deterministic by construction). */
  datatype Hasher = Hasher(salt: string, codeLen: nat, digest: string -> string)

  /** The voter code of an email: the first `codeLen` characters of the
      digest of salt followed by email, or the whole digest when it is
      shorter (a Python slice never fails). */
  function SaltedHash(h: Hasher, email: string): (code: string)
    ensures var d := h.digest(h.salt + email);
      code <= d && |code| == (if h.codeLen <= |d| then h.codeLen else |d|)
  {
    var d := h.digest(h.salt + email);
    if h.codeLen <= |d| then d[..h.codeLen] else d
  }

  /** A run codes with `DefaultCodeLen`: against an MD5 hex digest, 32
      characters long, every code has exactly 12 characters. */
  lemma DefaultCodesHaveTwelveChars(salt: string, digest: string -> string, email: string)
    requires |digest(salt + email)| == 32
    ensures |SaltedHash(Hasher(salt, DefaultCodeLen, digest), email)| == 12
  {
  }

  /** One row of the `voterids` table. */
  datatype Entry = Entry(code: string, email: string)

  /** `voters` is the set of registered emails; `entries` is `voterids` as
      its insertion-ordered rows. */
  datatype Registry = Registry(voters: set<string>, entries: seq<Entry>)

  /** The registry of a newly created `Typevote` object (typevote.py:15-16). */
  const EmptyRegistry := Registry({}, [])

  /** A run starts from a consistent registry. */
  lemma EmptyRegistryIsValid()
    ensures Valid(EmptyRegistry)
  {
  }

  function Codes(es: seq<Entry>): seq<string> {
    seq(|es|, i requires 0 <= i < |es| => es[i].code)
  }

  function Emails(es: seq<Entry>): seq<string> {
    seq(|es|, i requires 0 <= i < |es| => es[i].email)
  }

  /** The `voterids` dict as the source sees it: keys are codes (`Some`),
      assigned in order, a later assignment overriding an earlier one. */
  function VoterIds(es: seq<Entry>): (ids: map<Option<string>, string>)
    ensures None !in ids
    ensures forall c :: Some(c) in ids <==> c in Codes(es)
  {
    if |es| == 0 then map[]
    else
      var p := es[..|es| - 1];
      var e := es[|es| - 1];
      assert Codes(es) == Codes(p) + [e.code];
      VoterIds(p)[Some(e.code) := e.email]
  }

  /** With unique codes no assignment is ever overridden: every entry is
      found under its own code and the table has one key per entry. */
  lemma {:induction false} VoterIdsOfUniqueCodes(es: seq<Entry>)
    requires Distinct(Codes(es))
    ensures forall i :: 0 <= i < |es| ==>
      Some(es[i].code) in VoterIds(es) && VoterIds(es)[Some(es[i].code)] == es[i].email
    ensures |VoterIds(es)| == |es|
  {
    if |es| == 0 {
    } else {
      var p := es[..|es| - 1];
      var e := es[|es| - 1];
      assert Codes(es) == Codes(p) + [e.code];
      DistinctSnoc(Codes(p), e.code);
      VoterIdsOfUniqueCodes(p);
      var ids := VoterIds(p);
      assert VoterIds(es) == ids[Some(e.code) := e.email];
      assert Some(e.code) !in ids;
      assert |VoterIds(es)| == |es|;
      forall i | 0 <= i < |p|
        ensures Some(es[i].code) in VoterIds(es) && VoterIds(es)[Some(es[i].code)] == es[i].email
      {
        assert es[i] == p[i];
        assert Codes(p)[i] == p[i].code;
      }
    }
  }

  /** A consistent registry: codes and emails are each unique, and `voters`
      holds exactly the emails that have codes. So `voterids` is injective. */
  predicate Valid(reg: Registry) {
    && Distinct(Codes(reg.entries))
    && Distinct(Emails(reg.entries))
    && reg.voters == set e | e in Emails(reg.entries)
  }

  /** How one input line is classified (typevote.py:30-43). */
  datatype LineKind = Skipped | Duplicate | Fresh

  /** The per-file counters of `add_emails` (typevote.py:28). */
  datatype Counts = Counts(valid: nat, duplicate: nat, skipped: nat)

  /** A registry together with the counters of the current email file. */
  datatype Batch = Batch(registry: Registry, counts: Counts)

  function Classify(voters: set<string>, line: string): (k: LineKind)
    ensures k == Skipped <==> '@' !in line
    ensures k == Duplicate <==> '@' in line && Strip(line) in voters
  {
    if '@' !in line then Skipped
    else if Strip(line) in voters then Duplicate
    else Fresh
  }

  /** One iteration of the `add_emails` loop (typevote.py:30-43). A new
      address whose code is already a key of `voterids` aborts the run. */
  function AddLine(h: Hasher, b: Batch, line: string): (r: Result<Batch>)
    ensures r.Err? <==>
      Classify(b.registry.voters, line) == Fresh && SaltedHash(h, Strip(line)) in Codes(b.registry.entries)
    ensures r.Ok? ==>
      var c := r.value.counts;
      c.valid + c.duplicate + c.skipped == b.counts.valid + b.counts.duplicate + b.counts.skipped + 1
    ensures r.Ok? && Valid(b.registry) ==> Valid(r.value.registry)
    ensures r.Err? ==> r.fault.HashCollision?
  {
    var reg := b.registry;
    var c := b.counts;
    match Classify(reg.voters, line)
    case Skipped => Ok(Batch(reg, c.(skipped := c.skipped + 1)))
    case Duplicate => Ok(Batch(reg, c.(duplicate := c.duplicate + 1)))
    case Fresh =>
      var email := Strip(line);
      var code := SaltedHash(h, email);
      var ids := VoterIds(reg.entries);
      if Some(code) in ids then
        Err(HashCollision(email, ids[Some(code)], code))
      else
        EnterKeepsValid(reg, code, email);
        Ok(Batch(Enter(reg, code, email), c.(valid := c.valid + 1)))
  }

  /** The registry after `voters.add(email)` and `voterids[code] = email`
      (typevote.py:34, 39). */
  function Enter(reg: Registry, code: string, email: string): (r: Registry)
    ensures r.voters == reg.voters + {email}
    ensures VoterIds(r.entries) == VoterIds(reg.entries)[Some(code) := email]
    ensures Codes(r.entries) == Codes(reg.entries) + [code]
  {
    var r := Registry(reg.voters + {email}, reg.entries + [Entry(code, email)]);
    assert r.entries[..|r.entries| - 1] == reg.entries;
    r
  }

  /** Registering an address that is not yet a voter under a code that is
      not yet taken keeps a consistent registry consistent. */
  lemma EnterKeepsValid(reg: Registry, code: string, email: string)
    requires code !in Codes(reg.entries) && email !in reg.voters
    ensures Valid(reg) ==> Valid(Enter(reg, code, email))
  {
    var es := reg.entries + [Entry(code, email)];
    assert Codes(es) == Codes(reg.entries) + [code];
    assert Emails(es) == Emails(reg.entries) + [email];
    assert (set e | e in Emails(es)) == (set e | e in Emails(reg.entries)) + {email};
  }

  /** A line that is skipped or a duplicate bumps its own counter and
      nothing else. */
  lemma IgnoredLineChangesOnlyItsCounter(h: Hasher, b: Batch, line: string)
    requires Classify(b.registry.voters, line) != Fresh
    ensures AddLine(h, b, line).Ok?
    ensures AddLine(h, b, line).value.registry == b.registry
    ensures '@' !in line ==> AddLine(h, b, line).value.counts == b.counts.(skipped := b.counts.skipped + 1)
    ensures '@' in line ==> AddLine(h, b, line).value.counts == b.counts.(duplicate := b.counts.duplicate + 1)
  {
  }

  /** `add_emails` over the lines of one file, in order. The counters start
      at zero for every file; the registry carries over. */
  function AddEmails(h: Hasher, reg: Registry, lines: seq<string>): (r: Result<Batch>)
    ensures r.Ok? ==>
      var c := r.value.counts;
      c.valid + c.duplicate + c.skipped == |lines|
    ensures r.Ok? && Valid(reg) ==> Valid(r.value.registry)
    ensures r.Err? ==> r.fault.HashCollision?
  {
    if |lines| == 0 then Ok(Batch(reg, Counts(0, 0, 0)))
    else
      match AddEmails(h, reg, lines[..|lines| - 1])
      case Err(f) => Err(f)
      case Ok(b) => AddLine(h, b, lines[|lines| - 1])
  }

  /** The stripped addresses of the lines that contain `@`. */
  function AtLines(lines: seq<string>): set<string> {
    set l | l in lines && '@' in l :: Strip(l)
  }

  lemma AtLinesSnoc(lines: seq<string>)
    requires |lines| > 0
    ensures var l := lines[|lines| - 1];
      AtLines(lines) == AtLines(lines[..|lines| - 1]) + (if '@' in l then {Strip(l)} else {})
  {
    assert lines == lines[..|lines| - 1] + [lines[|lines| - 1]];
  }

  /** How many lines contain `@`. */
  function AtCount(lines: seq<string>): (n: nat)
    ensures n <= |lines|
  {
    if |lines| == 0 then 0
    else AtCount(lines[..|lines| - 1]) + (if '@' in lines[|lines| - 1] then 1 else 0)
  }

  /** The stripped addresses of the `@` lines not registered beforehand, in
      line order, repetitions included. */
  function Candidates(voters: set<string>, lines: seq<string>): (r: seq<string>)
    ensures forall e :: e in r <==> e in AtLines(lines) && e !in voters
  {
    if |lines| == 0 then []
    else
      var p := Candidates(voters, lines[..|lines| - 1]);
      var l := lines[|lines| - 1];
      AtLinesSnoc(lines);
      if '@' in l && Strip(l) !in voters then p + [Strip(l)] else p
  }

  /** The addresses a file newly registers, in the order of their first
      line. */
  function NewEmails(voters: set<string>, lines: seq<string>): seq<string> {
    Dedupe(Candidates(voters, lines))
  }

  /** The `voterids` rows that registering `emails` in order creates. */
  function Enroll(h: Hasher, emails: seq<string>): seq<Entry> {
    seq(|emails|, i requires 0 <= i < |emails| => Entry(SaltedHash(h, emails[i]), emails[i]))
  }

  /** How one more line changes the newly registered addresses. */
  lemma NewEmailsSnoc(voters: set<string>, lines: seq<string>)
    requires |lines| > 0
    ensures var l := lines[|lines| - 1];
      var f0 := NewEmails(voters, lines[..|lines| - 1]);
      NewEmails(voters, lines) ==
        if '@' in l && Strip(l) !in voters && Strip(l) !in f0 then f0 + [Strip(l)] else f0
  {
    var l := lines[|lines| - 1];
    var c0 := Candidates(voters, lines[..|lines| - 1]);
    if '@' in l && Strip(l) !in voters {
      assert Candidates(voters, lines) == c0 + [Strip(l)];
      assert (c0 + [Strip(l)])[..|c0|] == c0;
    }
  }

  lemma EnrollSnoc(h: Hasher, prior: seq<Entry>, emails: seq<string>, e: string)
    ensures prior + Enroll(h, emails + [e]) == (prior + Enroll(h, emails)) + [Entry(SaltedHash(h, e), e)]
    ensures Codes(prior + Enroll(h, emails + [e])) == Codes(prior + Enroll(h, emails)) + [SaltedHash(h, e)]
  {
    assert Enroll(h, emails + [e]) == Enroll(h, emails) + [Entry(SaltedHash(h, e), e)];
    assert prior + Enroll(h, emails + [e]) == (prior + Enroll(h, emails)) + [Entry(SaltedHash(h, e), e)];
  }

  /** The first half of `AddEmailsOutcome`: when the file is accepted and
      which rows it appends. */
  ghost predicate AddsEnrolledRows(h: Hasher, reg: Registry, lines: seq<string>) {
    var r := AddEmails(h, reg, lines);
    var added := NewEmails(reg.voters, lines);
    && (r.Ok? <==> Distinct(Codes(reg.entries + Enroll(h, added))))
    && (r.Ok? ==> r.value.registry.entries == reg.entries + Enroll(h, added))
  }

  /** The second half of `AddEmailsOutcome`: the voters set and the counters
      of an outcome `r` of reading `lines`. */
  ghost predicate CountsAddresses(reg: Registry, lines: seq<string>, r: Result<Batch>) {
    r.Ok? ==>
      && r.value.registry.voters == reg.voters + AtLines(lines)
      && r.value.counts.valid == |NewEmails(reg.voters, lines)|
      && r.value.counts.skipped == |lines| - AtCount(lines)
  }

  /** What `add_emails` does with one file, stated without the loop: it
      succeeds exactly when the codes of the old rows and of the newly
      registered addresses are all different, and then it has appended one
      row per new address in first-appearance order, added every `@`
      address to `voters`, counted each new address once as valid and each
      line without `@` as skipped. */
  lemma {:induction false} AddEmailsOutcome(h: Hasher, reg: Registry, lines: seq<string>)
    requires Valid(reg)
    ensures var r := AddEmails(h, reg, lines);
      var added := NewEmails(reg.voters, lines);
      && (r.Ok? <==> Distinct(Codes(reg.entries + Enroll(h, added))))
      && (r.Ok? ==>
            && r.value.registry.entries == reg.entries + Enroll(h, added)
            && r.value.registry.voters == reg.voters + AtLines(lines)
            && r.value.counts.valid == |added|
            && r.value.counts.skipped == |lines| - AtCount(lines))
  {
    if |lines| == 0 {
      assert Candidates(reg.voters, lines) == [];
      assert reg.entries + Enroll(h, NewEmails(reg.voters, lines)) == reg.entries;
    } else {
      AddEmailsOutcome(h, reg, lines[..|lines| - 1]);
      AddEmailsRowsStep(h, reg, lines);
      AddEmailsCountsStep(h, reg, lines);
    }
  }

  lemma AddEmailsRowsStep(h: Hasher, reg: Registry, lines: seq<string>)
    requires Valid(reg) && |lines| > 0
    requires AddsEnrolledRows(h, reg, lines[..|lines| - 1])
    requires CountsAddresses(reg, lines[..|lines| - 1], AddEmails(h, reg, lines[..|lines| - 1]))
    ensures AddsEnrolledRows(h, reg, lines)
  {
    var V := reg.voters;
    var pre := lines[..|lines| - 1];
    var l := lines[|lines| - 1];
    AtLinesSnoc(lines);
    NewEmailsSnoc(V, lines);
    var f0 := NewEmails(V, pre);
    var p0 := reg.entries + Enroll(h, f0);
    var isNew := '@' in l && Strip(l) !in V && Strip(l) !in f0;
    if isNew {
      EnrollSnoc(h, reg.entries, f0, Strip(l));
      DistinctSnoc(Codes(p0), SaltedHash(h, Strip(l)));
    }
    var r0 := AddEmails(h, reg, pre);
    assert AddEmails(h, reg, lines) == if r0.Err? then Err(r0.fault) else AddLine(h, r0.value, l);
    if r0.Ok? {
      var b := r0.value;
      assert Classify(b.registry.voters, l) == Fresh <==> isNew;
      if isNew {
        AddFreshLine(h, b, l);
      } else {
        IgnoredLineChangesOnlyItsCounter(h, b, l);
      }
    }
  }

  lemma AddEmailsCountsStep(h: Hasher, reg: Registry, lines: seq<string>)
    requires |lines| > 0
    requires CountsAddresses(reg, lines[..|lines| - 1], AddEmails(h, reg, lines[..|lines| - 1]))
    ensures CountsAddresses(reg, lines, AddEmails(h, reg, lines))
  {
    var r0 := AddEmails(h, reg, lines[..|lines| - 1]);
    if r0.Ok? {
      CountsAfterLine(h, reg, lines, r0.value);
    }
  }

  /** One more line keeps the voters set and the counters in step. */
  lemma CountsAfterLine(h: Hasher, reg: Registry, lines: seq<string>, b: Batch)
    requires |lines| > 0
    requires CountsAddresses(reg, lines[..|lines| - 1], Ok(b))
    ensures CountsAddresses(reg, lines, AddLine(h, b, lines[|lines| - 1]))
  {
    var l := lines[|lines| - 1];
    AtLinesSnoc(lines);
    NewEmailsSnoc(reg.voters, lines);
    FreshIffNew(reg.voters, lines[..|lines| - 1], l, b.registry.voters);
    if Classify(b.registry.voters, l) == Fresh {
      CountsAfterFresh(h, reg, lines, b);
    } else {
      CountsAfterIgnored(h, reg, lines, b);
    }
  }

  lemma CountsAfterFresh(h: Hasher, reg: Registry, lines: seq<string>, b: Batch)
    requires |lines| > 0
    requires CountsAddresses(reg, lines[..|lines| - 1], Ok(b))
    requires var l := lines[|lines| - 1];
      && Classify(b.registry.voters, l) == Fresh
      && '@' in l
      && AtLines(lines) == AtLines(lines[..|lines| - 1]) + {Strip(l)}
      && NewEmails(reg.voters, lines) == NewEmails(reg.voters, lines[..|lines| - 1]) + [Strip(l)]
    ensures CountsAddresses(reg, lines, AddLine(h, b, lines[|lines| - 1]))
  {
    var l := lines[|lines| - 1];
    assert AtCount(lines) == AtCount(lines[..|lines| - 1]) + 1;
    AddFreshLine(h, b, l);
  }

  lemma CountsAfterIgnored(h: Hasher, reg: Registry, lines: seq<string>, b: Batch)
    requires |lines| > 0
    requires CountsAddresses(reg, lines[..|lines| - 1], Ok(b))
    requires var l := lines[|lines| - 1];
      && Classify(b.registry.voters, l) != Fresh
      && AtLines(lines) == AtLines(lines[..|lines| - 1]) + (if '@' in l then {Strip(l)} else {})
      && NewEmails(reg.voters, lines) == NewEmails(reg.voters, lines[..|lines| - 1])
    ensures CountsAddresses(reg, lines, AddLine(h, b, lines[|lines| - 1]))
  {
    var l := lines[|lines| - 1];
    assert AtCount(lines) == AtCount(lines[..|lines| - 1]) + (if '@' in l then 1 else 0);
    IgnoredLineChangesOnlyItsCounter(h, b, l);
  }

  /** After the first lines of a file, a line is fresh exactly when it
      names an `@` address that neither was registered before the file nor
      came earlier in it. */
  lemma FreshIffNew(voters: set<string>, pre: seq<string>, l: string, seen: set<string>)
    requires seen == voters + AtLines(pre)
    ensures Classify(seen, l) == Fresh <==>
      '@' in l && Strip(l) !in voters && Strip(l) !in NewEmails(voters, pre)
  {
    var c := Candidates(voters, pre);
    assert forall e :: e in NewEmails(voters, pre) <==> e in c;
  }

  /** A fresh line either collides or appends its row and counts as valid. */
  lemma AddFreshLine(h: Hasher, b: Batch, line: string)
    requires Classify(b.registry.voters, line) == Fresh
    ensures var code := SaltedHash(h, Strip(line));
      AddLine(h, b, line) ==
        if code in Codes(b.registry.entries) then
          Err(HashCollision(Strip(line), VoterIds(b.registry.entries)[Some(code)], code))
        else
          Ok(Batch(Enter(b.registry, code, Strip(line)), b.counts.(valid := b.counts.valid + 1)))
  {
  }

  /** The valid counter is the number of distinct `@` addresses of the file
      that were not registered before it. */
  lemma ValidCountIsNewAddresses(h: Hasher, reg: Registry, lines: seq<string>)
    requires Valid(reg)
    requires AddEmails(h, reg, lines).Ok?
    ensures AddEmails(h, reg, lines).value.counts.valid == |AtLines(lines) - reg.voters|
  {
    AddEmailsOutcome(h, reg, lines);
    var added := NewEmails(reg.voters, lines);
    DistinctCard(added);
    assert (set e | e in added) == AtLines(lines) - reg.voters;
  }

  /** Every row's code is the salted hash of its email under `h`. */
  predicate Coded(h: Hasher, reg: Registry) {
    forall i :: 0 <= i < |reg.entries| ==> reg.entries[i].code == SaltedHash(h, reg.entries[i].email)
  }

  /** In a consistent registry `voterids` is injective: two different codes
      never name the same email. */
  lemma VoterIdsInjective(reg: Registry)
    requires Valid(reg)
    ensures var ids := VoterIds(reg.entries);
      forall k1, k2 :: k1 in ids && k2 in ids && k1 != k2 ==> ids[k1] != ids[k2]
  {
    var es := reg.entries;
    var ids := VoterIds(es);
    VoterIdsOfUniqueCodes(es);
    forall k1, k2 | k1 in ids && k2 in ids && k1 != k2
      ensures ids[k1] != ids[k2]
    {
      var i :| 0 <= i < |es| && Codes(es)[i] == k1.value;
      var j :| 0 <= j < |es| && Codes(es)[j] == k2.value;
      assert Emails(es)[i] != Emails(es)[j];
    }
  }

  /** After a successful `add_emails` on a consistent registry whose codes
      come from the same hasher, looking up the salted hash of any
      registered email in `voterids` gives back that email. */
  lemma RegisteredEmailsAreFound(h: Hasher, reg: Registry, lines: seq<string>)
    requires Valid(reg) && Coded(h, reg)
    requires AddEmails(h, reg, lines).Ok?
    ensures var reg' := AddEmails(h, reg, lines).value.registry;
      && Coded(h, reg')
      && forall e :: e in reg'.voters ==>
           Some(SaltedHash(h, e)) in VoterIds(reg'.entries) && VoterIds(reg'.entries)[Some(SaltedHash(h, e))] == e
  {
    AddEmailsOutcome(h, reg, lines);
    var reg' := AddEmails(h, reg, lines).value.registry;
    var es := reg'.entries;
    assert Coded(h, reg');
    VoterIdsOfUniqueCodes(es);
    forall e | e in reg'.voters
      ensures Some(SaltedHash(h, e)) in VoterIds(es) && VoterIds(es)[Some(SaltedHash(h, e))] == e
    {
      var i :| 0 <= i < |es| && Emails(es)[i] == e;
      assert es[i].code == SaltedHash(h, e);
    }
  }

  /** The collision `add_emails` stops at (typevote.py:36-38) is a real
      one: the new address is not yet a voter, the address it clashes with
      is, the two differ, and both hash to the reported code. */
  lemma CollisionNamesTwoVoters(h: Hasher, b: Batch, line: string)
    requires Valid(b.registry) && Coded(h, b.registry)
    requires AddLine(h, b, line).Err?
    ensures var f := AddLine(h, b, line).fault;
      && f.HashCollision?
      && f.email == Strip(line) && '@' in line
      && f.email !in b.registry.voters
      && f.other in b.registry.voters
      && f.other != f.email
      && f.code == SaltedHash(h, f.email) == SaltedHash(h, f.other)
  {
    var es := b.registry.entries;
    var code := SaltedHash(h, Strip(line));
    VoterIdsOfUniqueCodes(es);
    var i :| 0 <= i < |es| && Codes(es)[i] == code;
    assert es[i].code == code;
    assert Emails(es)[i] == es[i].email;
  }

  /** Line `j` of the file carries the colliding address of `f`, which
      neither the registry nor the lines before `j` had, while the other
      address of `f` was already there. */
  ghost predicate ClashesAt(reg: Registry, lines: seq<string>, f: Fault, j: int) {
    && f.HashCollision?
    && 0 <= j < |lines| && '@' in lines[j] && Strip(lines[j]) == f.email
    && f.email !in reg.voters + AtLines(lines[..j])
    && f.other in reg.voters + AtLines(lines[..j])
  }

  /** Over a whole file: when `add_emails` stops, it reports an `@` address
      of the file that was not a voter before the file, and a different
      address, registered before or earlier in the file, with the same
      code. */
  lemma {:induction false} CollisionInFile(h: Hasher, reg: Registry, lines: seq<string>)
    requires Valid(reg) && Coded(h, reg)
    requires AddEmails(h, reg, lines).Err?
    ensures var f := AddEmails(h, reg, lines).fault;
      && f.HashCollision?
      && f.email in AtLines(lines) && f.email !in reg.voters
      && f.other in reg.voters + AtLines(lines)
      && f.other != f.email
      && f.code == SaltedHash(h, f.email) == SaltedHash(h, f.other)
      && exists j :: ClashesAt(reg, lines, f, j)
  {
    var pre := lines[..|lines| - 1];
    var r0 := AddEmails(h, reg, pre);
    AtLinesSnoc(lines);
    if r0.Err? {
      CollisionInFile(h, reg, pre);
      assert AddEmails(h, reg, lines) == r0;
      var j :| ClashesAt(reg, pre, r0.fault, j);
      ClashesInLongerFile(reg, lines, r0.fault, j);
    } else {
      LastLineCollides(h, reg, lines);
    }
  }

  /** A clash found in a file is still there once one more line follows. */
  lemma ClashesInLongerFile(reg: Registry, lines: seq<string>, f: Fault, j: int)
    requires |lines| > 0 && ClashesAt(reg, lines[..|lines| - 1], f, j)
    ensures ClashesAt(reg, lines, f, j)
  {
    assert lines[..|lines| - 1][..j] == lines[..j];
  }

  /** When the lines before the last are registered without trouble, the
      collision is on the last line. */
  lemma LastLineCollides(h: Hasher, reg: Registry, lines: seq<string>)
    requires Valid(reg) && Coded(h, reg)
    requires |lines| > 0
    requires AddEmails(h, reg, lines[..|lines| - 1]).Ok?
    requires AddEmails(h, reg, lines).Err?
    ensures var f := AddEmails(h, reg, lines).fault;
      && f.HashCollision?
      && f.email in AtLines(lines) && f.email !in reg.voters
      && f.other in reg.voters + AtLines(lines)
      && f.other != f.email
      && f.code == SaltedHash(h, f.email) == SaltedHash(h, f.other)
      && ClashesAt(reg, lines, f, |lines| - 1)
  {
    var pre := lines[..|lines| - 1];
    var l := lines[|lines| - 1];
    var b := AddEmails(h, reg, pre).value;
    assert AddEmails(h, reg, lines) == AddLine(h, b, l);
    AtLinesSnoc(lines);
    AddEmailsOutcome(h, reg, pre);
    RegisteredEmailsAreFound(h, reg, pre);
    CollisionNamesTwoVoters(h, b, l);
  }

  /** The line `gen_codefile` writes for a code: the email `voterids` maps
      it to, a comma, the code and a newline (typevote.py:55). */
  function CodeLine(email: string, code: string): string {
    email + "," + code + "\n"
  }

  /** `gen_codefile` (typevote.py:54-55): one line per key of `voterids`, in
      the dict's key order. */
  function Codefile(reg: Registry): (lines: seq<string>)
    ensures |lines| == |VoterIds(reg.entries)|
  {
    var ids := VoterIds(reg.entries);
    var keys := Dedupe(Codes(reg.entries));
    KeyCount(reg.entries);
    seq(|keys|, i requires 0 <= i < |keys| => CodeLine(ids[Some(keys[i])], keys[i]))
  }

  /** `voterids` has one key per distinct code, whatever the rows. */
  lemma {:induction false} KeyCount(es: seq<Entry>)
    ensures |VoterIds(es)| == |Dedupe(Codes(es))|
  {
    if |es| > 0 {
      var p := es[..|es| - 1];
      var c := es[|es| - 1].code;
      var s := Codes(es);
      assert s[..|s| - 1] == Codes(p);
      assert s[|s| - 1] == c;
      KeyCount(p);
      assert Some(c) in VoterIds(p) <==> c in Dedupe(Codes(p));
    }
  }

  /** Reads a codefile line back: the text up to the last comma is the
      email, the rest up to the final newline is the code. */
  function ParseCodeLine(line: string): (r: Option<Entry>)
    ensures r.Some? ==> CodeLine(r.value.email, r.value.code) == line && ',' !in r.value.code
  {
    if |line| == 0 || line[|line| - 1] != '\n' then None
    else
      var body := line[..|line| - 1];
      match LastIndex(body, ',')
      case None => None
      case Some(k) =>
        assert body == body[..k] + "," + body[k + 1..];
        Some(Entry(body[k + 1..], body[..k]))
  }

  /** A codefile line reads back as the pair it was written from, provided
      the code has no comma (a hex digest never has). */
  lemma CodeLineRoundTrip(email: string, code: string)
    requires ',' !in code
    ensures ParseCodeLine(CodeLine(email, code)) == Some(Entry(code, email))
  {
    var line := CodeLine(email, code);
    var body := line[..|line| - 1];
    assert body == email + "," + code;
    assert body[|email|] == ',';
    assert body[|email| + 1..] == code;
    assert body[..|email|] == email;
  }

  /** For a consistent registry the codefile holds exactly one line per
      `voterids` entry, in registration order, each reading back as that
      entry's email and code. */
  lemma CodefileListsVoterIds(reg: Registry)
    requires Valid(reg)
    requires forall i :: 0 <= i < |reg.entries| ==> ',' !in reg.entries[i].code
    ensures |Codefile(reg)| == |VoterIds(reg.entries)| == |reg.entries|
    ensures forall i :: 0 <= i < |reg.entries| ==> ParseCodeLine(Codefile(reg)[i]) == Some(reg.entries[i])
  {
    DedupeDistinct(Codes(reg.entries));
    VoterIdsOfUniqueCodes(reg.entries);
    forall i | 0 <= i < |reg.entries|
      ensures ParseCodeLine(Codefile(reg)[i]) == Some(reg.entries[i])
    {
      CodeLineRoundTrip(reg.entries[i].email, reg.entries[i].code);
    }
  }
}
